=== FILE: README.md ===
# ConsoleGame core in Dafny

This project models the core of ConsoleGame, a small terminal shooter written in C#. The
player ship sits at the bottom of a bordered playfield. Eight enemies appear along the top.
The space bar fires a volley of projectiles upwards.

The model has three layers:

- **Display** (`Points`, `Grids`). `Point` and its two `Shift` overloads. The `Grid` is a
  character buffer and a colour buffer, each `cols + 3` wide and `rows + 3` high, with a
  fixed border and a first-in-first-out queue of dirty cells. `FillPixel` writes cell
  `(row + 2, col + 2)` and queues it only when the cell changes. `Render` drains the queue
  into a log of `Write(row, col, char, colour)` records instead of driving a terminal.
- **Entities** (`Entities`, `Creatures`, `Players`, `Enemies`, `Projectiles`). The C#
  hierarchy `Entity` → `Creature` → `Player`/`Enemy` and `Entity` → `Projectile` becomes
  one `Entity` datatype with a `Kind` tag. `hitPoint` is present exactly for creatures.
  The entity also carries its shape, optional colour map, current and previous location,
  velocity, expiry flag and frame counter. The game's `MaxRow`/`MaxCol` are passed as a
  `Bounds` value. Modelled operations:
  - the clamping location setter;
  - the velocity step;
  - the unclamped out-of-bound test;
  - the edge-based collision test, exactly as written;
  - the per-variant expiry tests;
  - the colour-map getter;
  - `Draw` and `ErasePreviousImage`, as sequences of `FillPixel` calls.
- **Game** (`Rosters`, `Games`). The roster is a `seq<Entity>`, and each game operation is
  a deterministic step:
  - `Update` marks hits, removes expiring entities after their last step and erase,
    respawns a wave when no enemy is left, steps and draws every entity, then renders;
  - `Fire`;
  - `SpawnEnemies`;
  - `KeyAction`, over a `Key` datatype;
  - the constructor.

  The random enemy colours are a `hues` parameter with values 1..15, the range of
  `rand.Next(1, 16)`.

The source throws in a few places: grid sizes out of range, an index past a jagged array,
`Max()` of an empty shape. The range check is modelled as a `Result` failure. The other two
become preconditions that the game itself always meets.

## Model

| member | source | states |
|---|---|---|
| Points.NewPoint | Display/Point.cs:30-34 | the point holds exactly the given row and column |
| Points.Shift | Display/Point.cs:43-49 | the returned point is the receiver moved by (row, column); a fresh shift leaves the receiver unchanged, an in-place shift moves the receiver and returns that same object |
| Points.ShiftBy | Display/Point.cs:57-60 | shifting by a displacement returns the receiver plus the displacement, fresh or in place as requested |
| Points.ShiftByDelegates | Display/Point.cs:57-60 | the displacement overload agrees exactly with the (row, column) overload |
| Points.ShiftComposes | Display/Point.cs:45 | two fresh shifts by a and then b land where one shift by a + b does, and the receiver is untouched |
| Ints.Quot | Player.cs:30 | C# integer division truncates toward zero: the remainder has the dividend's sign and is smaller than the divisor |
| Ints.QuotNonNegative | Game.cs:154-159 | for a non-negative dividend the truncating quotient equals Dafny's Euclidean one, which is why `killCount / 4` and `/ 8` behind the `killCount >= 0` guard need no special case |
| Grids.BorderLayout | Display/Grid.cs:167-201 | the corners are at (1,1), (1,cols+2), (rows+2,1) and (rows+2,cols+2); side bars are in columns 1 and cols+2 for rows 2..rows+1; rules are in rows 1 and rows+2 for columns 2..cols+1; the interior and the margin are not border |
| Grids.BufferSize | Display/Grid.cs:228-232 | the buffer is rows + 3 high and cols + 3 wide (one margin line, two border lines) |
| Grids.CellColOffset | Display/Grid.cs:209-212 | the column offset is 2 for every column: one margin column plus the border |
| Grids.CellRowOffset | Display/Grid.cs:220-223 | the row offset is 2 for every row: one margin line plus the border |
| Grids.Target | Display/Grid.cs:209-223 | both cell offsets are the constant margin + border, so grid cell (row, col) is buffer cell (row + 2, col + 2) for every row and col |
| Grids.FillPixel | Display/Grid.cs:115-122 | the target cell holds the character and colour afterwards and every other cell is unchanged; if the cell already held both, the whole grid is unchanged, and otherwise exactly that coordinate is appended to the queue |
| Grids.Render | Display/Grid.cs:93-106 | one write per queued coordinate in queue order, carrying the buffer contents; the queue ends empty, the buffers are unchanged, and an empty queue gives no writes |
| Grids.RowMajorIndex | Display/Grid.cs:144-151 | the k-th coordinate the initializer queues is (k / width, k % width), so the queue lists every cell once in row-major order |
| Grids.InitializeBuffer | Display/Grid.cs:141-162 | every cell becomes a blank in the default colour (White) and the queue grows by exactly the row-major list of all height × width cells |
| Grids.DrawBorder | Display/Grid.cs:167-201 | every border cell shows its glyph in White, every other cell and the queue are unchanged |
| Grids.Clear | Display/Grid.cs:127-132 | the grid ends as a blank bordered buffer with an empty queue, and the render log holds the old queue followed by every cell in row-major order, each showing the cleared contents |
| Grids.NewGrid | Display/Grid.cs:56-78 | construction fails exactly when rows is outside 8..32 or cols outside 16..64, with the rows check first; on success the buffer is (rows + 3) × (cols + 3), blank with its border, and every cell is queued in row-major order |
| Entities.Fresh | Entity.cs:91-98 | a new entity starts at (0,0) with previous location (0,0), frame 0, no expiry flag and no colour map |
| Entities.Width | Entity.cs:71 | the width is the longest shape row: no row is longer and some row has that length |
| Entities.ClampAxis | Entity.cs:72-73 | a coordinate at or below 0 becomes 0, one at or past the limit becomes the limit, and one in between is kept |
| Entities.Clamp | Entity.cs:70-74 | when the shape fits, the clamped location keeps the whole shape on the playfield, and a location already in range is kept |
| Entities.SetLocation | Entity.cs:67-76 | the old current location becomes the previous one, the new one is clamped, nothing else changes |
| Entities.SetColor | Entity.cs:137-148 | the map has the shape's row count and row lengths, every entry is the colour, and nothing else changes |
| Entities.ScanRows | Entity.cs:43-48 | the getter's scan matches exactly when a map is stored whose rows cover and match the shape; it faults, by indexing past the stored map, exactly when a shorter map matches on all its rows |
| Entities.ReadColorMap | Entity.cs:41-51 | the getter returns the stored map when it matches the shape and otherwise stores and returns an all-White map |
| Entities.SetColorReads | Entity.cs:41-51 | after `SetColor(c)` the getter returns that all-c map and changes nothing |
| Entities.ReadColorMapIdempotent | Entity.cs:41-51 | a second read of the colour map returns what the first read returned and stores nothing new |
| Entities.ColorMapOkScans | Entity.cs:43-48 | an absent map, or one that covers the shape with matching row lengths, never faults the scan |
| Entities.NextFrame | Entity.cs:153-162 | the current location becomes the clamped current + velocity, the previous location the old current, the frame count goes up by one; a player's velocity is reset to (0,0) and nothing else changes |
| Entities.IsOutOfBound | Entity.cs:168-176 | the test holds exactly when the unclamped next location, current + velocity, would put part of the shape outside [0, MaxRow] × [0, MaxCol] |
| Entities.OutOfBoundIffClamped | Entity.cs:168-176 | the unclamped out-of-bound test holds exactly when the next step would be clamped, that is when the next step differs from current + velocity |
| Entities.IsColliding | Entity.cs:183-196 | a collision needs this entity's box, grown by one cell to the right and below, to overlap the other's box, on both axes |
| Entities.CornerCollides | Entity.cs:183-196 | an entity whose top-left cell lies inside the other's box collides with it |
| Entities.CollidingIgnoresFlag | Entity.cs:183-196 | the collision test does not depend on the expiry flag |
| Entities.IsExpiring | Creature.cs:31 | a flagged entity is always expiring; an unflagged creature is expiring exactly when its hit points are at most 0, and an unflagged projectile (the override at Projectile.cs:25) exactly when current + velocity would put it outside the playfield |
| Entities.PaintQueues | Display/Grid.cs:115-122 | every coordinate painting adds to the queue is the target of one of the painted pixels |
| Entities.PaintKeeps | Display/Grid.cs:115-122 | painting leaves every cell no pixel targets unchanged |
| Entities.PaintShows | Display/Grid.cs:115-122 | after painting pixels that agree wherever they overlap, each pixel's target cell shows that pixel |
| Entities.PaintConcat | Display/Grid.cs:115-122 | `FillPixel` calls compose: painting one pixel list and then another leaves the same grid, queue included, as painting the two lists joined |
| Entities.EraseIsPaint | Entity.cs:121-131 | erasing is painting a Black blank on every footprint cell at the previous location |
| Entities.ErasePreviousImage | Entity.cs:121-131 | erasing keeps the grid well formed and of the same size, and the cells already queued stay queued, in order, ahead of the ones it adds |
| Entities.EraseCovers | Entity.cs:121-131 | every cell of the footprint at the previous location shows a Black blank afterwards |
| Entities.EraseKeeps | Entity.cs:121-131 | every cell outside that footprint is unchanged |
| Entities.EraseConfined | Entity.cs:121-131 | erasing writes and queues playfield cells only |
| Entities.Draw | Entity.cs:103-116 | the colour map read through the getter is stored (White when none was set), the entity is otherwise unchanged, and the grid stays well formed |
| Entities.DrawIsPaint | Entity.cs:103-116 | drawing is erasing, then painting the shape in the map's colours at the current location |
| Entities.DrawShows | Entity.cs:103-116 | after drawing, buffer cell (r + row + 2, c + col + 2) shows shape cell (r, c) in the colour the getter read |
| Entities.DrawKeeps | Entity.cs:103-131 | cells outside both the previous and the current footprint are unchanged by drawing |
| Entities.DrawConfined | Entity.cs:103-131 | every write and every queued cell of a draw lies on the playfield, never on the border or margin |
| Creatures.NewCreature | Creature.cs:23-26 | a creature stores its hit points and starts unflagged at (0,0) |
| Creatures.CreatureExpiry | Creature.cs:31 | a creature is expiring exactly when its flag is set or its hit points are at most 0, and stepping does not change that |
| Creatures.ProjectileExpiry | Projectile.cs:25 | a projectile is expiring exactly when its flag is set or it is out of bound, and, on a playfield its shape fits, exactly when its flag is set or its next frame has to clamp its move |
| Creatures.NextFramePlaced | Entity.cs:153-162 | a step keeps an entity on the playfield and keeps its kind, flag, hit points, shape and readable colour map |
| Creatures.ExpiryPersists | Game.cs:83-91 | an entity that is expiring is still expiring after its final step, which is why the removal loop's re-test after `NextFrame` removes it |
| Players.NewPlayer | Player.cs:20-31 | the player has the given hit points, the 4 × 4 ship shape, zero velocity and the clamped spawn (MaxRow, MaxCol / 2) |
| Players.PlayerStart | Player.cs:30 | the ship's bottom row is on MaxRow, its column is MaxCol / 2 whenever that fits, and it lies on the playfield |
| Players.Move | Player.cs:37-40 | moving sets the velocity and changes nothing else |
| Players.MoveOnce | Player.cs:37-49 | after `Move(d)` one step moves the ship to the clamped location + d and zeroes the velocity; a second step leaves it there |
| Enemies.EnemyWidth | Enemy.cs:14-20 | the enemy shape is four columns wide |
| Enemies.NewEnemy | Enemy.cs:12-23 | an enemy has the given hit points, the 4 × 4 shape, zero velocity and the clamped spawn location |
| Enemies.EnemyStays | Enemy.cs:12-23 | a new enemy is on the playfield, keeps an in-range spawn as given, never moves when stepped, and is not expiring with positive hit points |
| Projectiles.NewProjectile | Projectile.cs:12-20 | a projectile has the 1 × 1 `'|'` shape, no hit points, the given velocity and the clamped location |
| Projectiles.BulletCollision | Entity.cs:183-196 | a one-cell projectile collides with a box exactly when it lies in the box or one row above or one column left of it, because the test also checks the cell one past the projectile's edge |
| Projectiles.RisingProjectile | Projectile.cs:25 | a projectile moving up expires exactly at row 0 unless flagged, and otherwise moves up one row |
| Rosters.FirstShooter | Game.cs:71-76 | the projectile found lies at or after the starting index and is a projectile that is not yet flagged |
| Rosters.FirstShooterSpec | Game.cs:71-76 | the search returns the first projectile that collides with the enemy and is not expiring (unflagged and not about to leave the playfield), and returns nothing exactly when no such projectile exists |
| Rosters.Turn | Game.cs:71-81 | one enemy's turn keeps the roster's length and shapes and scores at most one kill |
| Rosters.TurnHit | Game.cs:71-81 | an enemy's turn flags both the enemy and the first eligible projectile and scores one kill, or changes nothing and scores none; no turn is taken for non-enemies |
| Rosters.TurnKeeps | Game.cs:71-81 | a turn changes at most the enemy whose turn it is and one projectile |
| Rosters.Mark | Game.cs:68-82 | the marking pass keeps the roster's length and shapes |
| Rosters.MarkKeeps | Game.cs:68-82 | marking never changes a player, or an enemy whose turn has already passed |
| Rosters.MarkFlagsShooters | Game.cs:73-75 | the number of newly flagged projectiles equals the kills scored, so each projectile is spent on at most one enemy |
| Rosters.MarkFlagsEnemies | Game.cs:77-81 | the number of newly flagged enemies equals the kills scored, so each hit enemy is counted once |
| Rosters.MarkMissesNothing | Game.cs:71-76 | an enemy left unflagged after marking collides with no projectile that is still unflagged and not about to leave the playfield |
| Rosters.MarkHitsAreReal | Game.cs:71-81 | an enemy flagged by marking collides with some projectile that marking flagged |
| Rosters.MarkQuiet | Game.cs:68-82 | with no projectile on the roster, marking changes nothing and scores nothing |
| Rosters.SurvivorsMembers | Game.cs:83-91 | an entity survives removal exactly when it is on the roster and not expiring |
| Rosters.SurvivorsConcat | Game.cs:83-91 | removal works element by element, so it keeps the survivors in their original order |
| Rosters.Sweep | Game.cs:83-91 | the removal loop leaves the grid well formed and of the same size |
| Rosters.SweepErases | Game.cs:83-91 | the removal loop leaves exactly the grid obtained by painting, in roster order, a Black blank over the footprint of each expiring entity at the location it was last drawn at, and nothing else |
| Rosters.SweepSurvivors | Game.cs:83-91 | the removal loop keeps exactly the survivors, and all of its erasing stays on the playfield |
| Rosters.Retire | Game.cs:85-90 | the last step and erase of an expiring entity leave the grid well formed and of the same size |
| Rosters.RetireDrops | Game.cs:85-90 | an expiring entity is dropped, and the grid becomes exactly the old grid with a Black blank painted over its footprint at the location it stood at before its last step; those writes stay on the playfield |
| Rosters.Step | Game.cs:93-97 | stepping and drawing an entity keeps it on the playfield with a readable colour map |
| Rosters.StepConfined | Game.cs:93-97 | stepping and drawing an entity writes playfield cells only |
| Rosters.StepsAt | Game.cs:93-97 | the i-th entity of the stepped list is the i-th entity one frame on, holding the colour map the getter yields for it |
| Rosters.StepPaints | Game.cs:93-97 | one entity's step leaves exactly the grid obtained by painting a Black blank over its footprint where it stood, then its image, in the colours the getter reads, where it stands one frame on |
| Rosters.Advance | Game.cs:93-97 | the advance-and-draw pass returns every entity stepped one frame on, in order, and leaves the grid well formed and of the same size |
| Rosters.AdvancePaints | Game.cs:93-97 | the advance loop leaves exactly the grid obtained by erasing and then drawing each entity in roster order, each at its location one frame on |
| Rosters.AdvanceConfined | Game.cs:93-97 | the whole advance loop writes playfield cells only |
| Rosters.AdvanceKeeps | Game.cs:93-97 | the advance loop keeps every entity placed, with a readable map, and keeps the kinds in order |
| Games.ShapesFit | Game.cs:34-36 | any grid the constructor accepts leaves room for the player, enemy and projectile shapes |
| Games.Wave | Game.cs:106-112 | the wave holds eight recruits in spawn order |
| Games.SpawnEnemies | Game.cs:104-113 | the roster is kept as a prefix and exactly eight recruits are appended in order |
| Games.Recruit | Game.cs:108-110 | recruit i is an unflagged enemy at rest, with the enemy shape and one hit point, at the clamped location (1, 1 + 6i) |
| Games.RecruitLayout | Game.cs:108-110 | recruit i is an enemy at (1, 1 + 6i), clamped, at rest, coloured entirely in its hue (never Black) |
| Games.DefaultLayout | Game.cs:106-108 | on the default 24 × 48 grid the eight enemies sit at row 1, columns 1, 7, …, 43 |
| Games.WaveCounts | Game.cs:104-113 | spawning adds exactly eight enemies and no players or projectiles, and keeps every entity placed |
| Games.MarkCounts | Game.cs:68-82 | the kills scored equal both the enemies and the projectiles newly flagged |
| Games.Remove | Game.cs:68-91 | the roster after marking and removal is exactly the marked roster's entities that are not expiring, in order; the player is still the only player, kills equal both the enemies and the projectiles newly flagged, and every erase stays on the playfield; the grid is exactly the old grid with a Black blank painted over each expiring marked entity's footprint where it was last drawn, in roster order; without projectiles the roster is unchanged and nothing is killed |
| Games.Cull | Game.cs:68-92 | the roster is exactly `Culled`: the survivors of marking and removal, followed by a new wave when none of them is an enemy; so at least one enemy is left, the player is the only player, and every erase stays on the playfield; the grid is exactly the old grid with a Black blank painted over each expiring marked entity's footprint where it was last drawn |
| Games.CulledLayout | Game.cs:83-92 | the culled roster starts with the survivors; it is just them while an enemy is among them, and otherwise they are followed by the eight recruits in order |
| Games.Reinforce | Game.cs:92 | a wave is appended exactly when the list holds no enemy, so an enemy is always left; the list stays sound and keeps its player count |
| Games.QuietSurvives | Game.cs:83-91 | with no projectile on the roster, removal keeps the roster whole |
| Games.Redraw | Game.cs:93-98 | entry i of the new roster is entry i one frame on; the buffer it renders is exactly the incoming grid after erasing and then drawing every entity in order, each at its location one frame on; the render log replays the old queue first, then only playfield cells, each write showing the final buffer; the queue ends empty |
| Games.Drained | Game.cs:93-98 | draining a grid whose writes were confined to the playfield logs the earlier queue first and only playfield cells after it |
| Games.Update | Game.cs:66-99 | one tick keeps the game invariant and leaves at least one enemy and an empty queue; entry i of the new roster is entry i of `Culled` (the survivors, plus a new wave when no enemy survived) stepped one frame on; the kill count rises by the number of enemies hit; with no projectiles and at least one enemy on the roster, every entity is only stepped; the render log replays the old queue first, then playfield cells only, each showing the final buffer; the final buffer is exactly the frame's first grid painted with the removal blanks of the expiring entities, then, for each culled entity in order, the blanks of its old footprint and its image one frame on (`Repainted`) |
| Games.FrameRepainted | Game.cs:66-98 | the removal pass's blanks followed by the redraw of the culled roster amount to one painting of the whole frame's pixels, in order |
| Games.Volley | Game.cs:154-156 | a non-negative kill count gives killCount / 4 + 1 projectiles, a negative one gives none |
| Games.Bullet | Game.cs:158-161 | bullet i is an unflagged `'|'` projectile with velocity (-1, 0), at the player's location shifted by (-1, 1 + i - killCount / 8) and clamped |
| Games.BulletPlacement | Game.cs:158-161 | projectile i is a Red projectile moving up, placed at the player's location shifted by (-1, 1 + i - killCount / 8) and clamped |
| Games.Shots | Game.cs:156-163 | the volley lists the projectiles in reverse creation order, as repeated insertion at the front leaves them |
| Games.Fire | Game.cs:150-165 | firing puts exactly Volley(killCount) projectiles in front of the unchanged roster, newest first, and changes nothing else |
| Games.FireKeeps | Game.cs:150-165 | firing keeps the game invariant and adds exactly that many projectiles |
| Games.Direction | Game.cs:126-137 | each arrow key gives a unit step along one axis in its own direction |
| Games.SteerKeeps | Game.cs:126-137 | setting the player's velocity keeps the roster sound and the player count |
| Games.KeyAction | Game.cs:119-145 | Escape stops the game; an arrow sets the player's velocity; Space puts exactly the volley's bullets, newest first, in front of the unchanged roster; C clears the grid, and its log lists the old queue and then every cell in row-major order, each showing the cleared contents; any other key changes nothing; only C writes to the terminal |
| Games.Muster | Game.cs:39-42 | the opening roster is the player followed by the eight recruits: one player, eight enemies, no projectiles |
| Games.FirstFrameSteps | Game.cs:39-44 | after the constructor's first update the roster is the player and each recruit stepped one frame on, in that order, with the kinds kept |
| Games.FirstFrame | Game.cs:44 | the constructor's first update leaves the player and every enemy where they were spawned, with their colours |
| Games.Opening | Game.cs:34-44 | the opening roster is the player and the eight recruits, and the first update steps each of them once, since nothing is hit and an enemy is left |
| Games.OpeningFrame | Game.cs:39-44 | the first frame of the mustered roster is the player and then each recruit stepped one frame on, in place and in its drawn colour: one player, eight enemies, no projectiles |
| Games.Launch | Game.cs:34-46 | the constructor's steps on an accepted grid give a game with the invariant, zero kills, an empty queue, and a roster of the player and then the eight recruits, each stepped one frame on, still at its spawn point and in its drawn colour: one player, eight enemies, no projectiles |
| Games.NewGame | Game.cs:32-47 | construction fails exactly when the grid size is out of range; otherwise MaxRow = rows - 1 and MaxCol = cols - 1, the roster is the player and then the eight recruits, each stepped one frame on, at its spawn point and in its drawn colour, with one player, eight enemies and no projectiles, and the first render starts with every buffer cell in row-major order |

## Left out

- Program.cs: console prompts, reading keys and setting the output encoding are terminal I/O.
- `Game.Start`: the `while (running)` loop, `Console.KeyAvailable`/`ReadKey` and
  `Thread.Sleep` pacing are I/O and timing. `KeyAction` takes a `Key` value instead.
- `Grid.InitializeWindow` and the `GetConsoleWindow`/`system` imports are foreign calls and
  terminal setup.
- The console calls inside `Render` become the returned `Write` log. This covers
  `SetCursorPosition`, `ForegroundColor` and `Write`, and the save and restore of the
  foreground colour.
- `System.Random` in `SpawnEnemies` is replaced by a `hues` parameter, one colour in 1..15
  per enemy.
- The static `_counter` and `Id` are left out. Every Id is the same constant and nothing
  reads it.
- The unused `footnote` and `IsComplete` fields are left out. The border glyphs are plain
  `char` constants.
- The 32-bit wrap-around of `killCount++` is not modelled. The kill count is an unbounded
  `int`.
- Grids.FillPixel: its precondition that the target cell lies in the buffer stands for the
  `IndexOutOfRangeException` the source would throw. No caller in the game reaches it,
  because every entity is clamped onto the playfield.
- Entities.ReadColorMap: its precondition excludes the case where a stored map has fewer
  rows than the shape and matches on all of them. There the getter's scan indexes past the
  map and throws. The game only stores maps built by `SetColor`, so the case never arises.
- Entities.Width: an empty shape is excluded, because `Max()` of an empty sequence throws.
  Every shape in the game has rows.
- Projectiles.BulletCollision: requires the other entity to have a non-empty widest row.
  All game shapes do.
- Entities.ErasePreviousImage: its own contract states only the grid's shape and the kept
  queue. The cell contents are stated by EraseCovers, EraseKeeps and EraseConfined.
- Rosters.FirstShooter, Rosters.Turn and Rosters.Mark: their own contracts state only
  positions, lengths and shapes. What they find and flag is stated by FirstShooterSpec,
  TurnHit, TurnKeeps and the Mark lemmas.
- Rosters.Retire and Rosters.Sweep: their own contracts state only the grid's shape. The
  entities they keep are stated by RetireDrops and SweepSurvivors. The blanks they paint are
  stated by RetireDrops and SweepErases.
- Rosters.Advance: its own contract states the stepped roster and the grid's shape. What it
  paints is stated by StepPaints and AdvancePaints.
- Entities.IsColliding: its contract states a necessary condition only. The exact test is
  characterised for one-cell projectiles by BulletCollision, and CornerCollides gives a
  sufficient condition in general.
- Entities.Draw: reads the colour map once and paints every pixel from it, where the source
  calls the getter once per pixel. Only the first call can store a new map, and the later
  calls return the same map (ReadColorMapIdempotent). Draw also requires ColorMapOk: no map,
  or one whose rows match the shape's. That is stronger than the getter needs. It excludes a
  stored map whose row lengths differ from the shape's without making the getter fault; the
  source's getter would replace such a map with an all-White one and draw with it. The game
  stores maps only through SetColor, which always matches the shape.
- Games.Shots: builds the volley and prepends it in one step, and Games.Wave builds the
  wave and appends it in one step. The source instead calls `Insert(0, …)` or `Add`
  once per entity. The resulting rosters are equal.
- Game.cs comments that `SpawnEnemies` "summons 6 enemies". The loop creates eight, and the
  model follows the loop.

=== FILE: creature.dfy ===
/** Creatures (Creature.cs): entities with hit points, and the expiry rules of the two entity
    families. */
module Creatures {
  import opened Points
  import opened Results
  import opened Entities

  /** The hit points a creature gets when its constructor is given none. */
  const DefaultHitPoint: int := 1

  /** The creature constructor: a fresh entity of a creature kind carrying `hp` hit points. */
  function NewCreature(kind: Kind, hp: int, shape: seq<seq<char>>, velocity: Point): (e: Entity)
    requires kind != ProjectileKind && |shape| > 0
    ensures Shaped(e) && e.kind == kind && e.hitPoint == Some(hp)
    ensures e.current == Point(0, 0) && e.previous == Point(0, 0) && !e.flagged && e.colorMap.None?
  {
    Fresh(kind, Some(hp), shape, velocity)
  }

  /** A creature expires exactly when it is flagged or has no hit points left; moving it never
      changes that. */
  lemma CreatureExpiry(e: Entity, b: Bounds)
    requires Shaped(e) && e.kind != ProjectileKind
    ensures IsExpiring(e, b) <==> e.flagged || e.hitPoint.value <= 0
    ensures IsExpiring(NextFrame(e, b), b) == IsExpiring(e, b)
  {
  }

  /** A projectile expires exactly when it is flagged or its next move would leave the
      playfield; on a playfield the shape fits, that is exactly when it is flagged or its
      next frame has to clamp its move. */
  lemma ProjectileExpiry(e: Entity, b: Bounds)
    requires Shaped(e) && e.kind == ProjectileKind
    ensures IsExpiring(e, b) <==> e.flagged || IsOutOfBound(e, b)
    ensures Fits(b, e.shape) ==>
      (IsExpiring(e, b) <==> e.flagged || NextFrame(e, b).current != Add(e.current, e.velocity))
  {
    if Fits(b, e.shape) {
      OutOfBoundIffClamped(e, b);
    }
  }

  /** Moving keeps an entity placed: the new location is clamped into range and the old one
      becomes the previous location. */
  lemma NextFramePlaced(e: Entity, b: Bounds)
    requires Placed(e, b)
    ensures Placed(NextFrame(e, b), b)
    ensures ColorMapOk(e) ==> ColorMapOk(NextFrame(e, b))
    ensures NextFrame(e, b).kind == e.kind && NextFrame(e, b).flagged == e.flagged
    ensures NextFrame(e, b).hitPoint == e.hitPoint && NextFrame(e, b).shape == e.shape
  {
  }

  /** An expiring entity still expires after one more frame. For a projectile leaving the
      playfield, the clamped location sits on the edge it was heading for, so the same
      velocity still leads out. */
  lemma {:induction false} ExpiryPersists(e: Entity, b: Bounds)
    requires Placed(e, b)
    ensures IsExpiring(e, b) ==> IsExpiring(NextFrame(e, b), b)
  {
    if e.kind == ProjectileKind && !e.flagged && IsOutOfBound(e, b) {
      var next := Add(e.current, e.velocity);
      var moved := NextFrame(e, b);
      var rl, cl := RowLimit(b, e.shape), ColLimit(b, e.shape);
      if next.row < 0 {
        assert e.velocity.row < 0 && moved.current.row == 0;
      } else if next.row > rl {
        assert e.velocity.row > 0 && moved.current.row == rl;
      } else if next.col < 0 {
        assert e.velocity.col < 0 && moved.current.col == 0;
      } else {
        assert next.col > cl;
        assert e.velocity.col > 0 && moved.current.col == cl;
      }
      assert IsOutOfBound(moved, b);
    }
  }
}

=== FILE: enemy.dfy ===
/** Enemies (Enemy.cs): stationary one-hit-point creatures placed at a spawn location. */
module Enemies {
  import opened Points
  import opened Results
  import opened Entities
  import opened Creatures

  const EnemyShape: seq<seq<char>> := [
    ['▐', '█', '█', '▌'],
    ['█', '▐', '▌', '█'],
    ['█', '█', '█', '█'],
    ['▌', '▌', '▐', '▐']
  ]

  /** The enemy shape is four columns wide. */
  lemma EnemyWidth()
    ensures Width(EnemyShape) == 4
  {
    assert |EnemyShape[0]| == 4 && |EnemyShape[1]| == 4 && |EnemyShape[2]| == 4 && |EnemyShape[3]| == 4;
  }

  /** The constructor: zero velocity, and the spawn location through the clamping setter. */
  function NewEnemy(b: Bounds, spawn: Point, hp: int): (e: Entity)
    ensures Shaped(e) && e.kind == EnemyKind && e.hitPoint == Some(hp) && e.shape == EnemyShape
    ensures e.velocity == Point(0, 0) && e.previous == Point(0, 0) && !e.flagged && e.colorMap.None?
    ensures e.current == Clamp(b, EnemyShape, spawn)
  {
    SetLocation(NewCreature(EnemyKind, hp, EnemyShape, Point(0, 0)), b, spawn)
  }

  /** On a playfield that fits the shape an enemy is placed, lands exactly on an in-range
      spawn location, and never moves: every frame keeps its location. */
  lemma EnemyStays(b: Bounds, spawn: Point, hp: int)
    requires Fits(b, EnemyShape)
    ensures Placed(NewEnemy(b, spawn, hp), b)
    ensures InRange(b, EnemyShape, spawn) ==> NewEnemy(b, spawn, hp).current == spawn
    ensures NextFrame(NewEnemy(b, spawn, hp), b).current == NewEnemy(b, spawn, hp).current
    ensures hp > 0 ==> !IsExpiring(NewEnemy(b, spawn, hp), b)
  {
    EnemyWidth();
  }
}

=== FILE: entity.dfy ===
/** Game objects (Entity.cs): shape, colour map, clamped location, velocity, expiry and
    collision, and drawing into the grid.

    The class hierarchy Entity > Creature > Player / Enemy and Entity > Projectile becomes one
    datatype with a `kind` tag; `hitPoint` is present exactly for creatures. An entity reads the
    bounds of the game it belongs to; here those bounds are a parameter. */
module Entities {
  import opened Points
  import opened Results
  import opened Grids

  datatype Kind = PlayerKind | EnemyKind | ProjectileKind

  /** The game's largest row and column index, which every entity consults. */
  datatype Bounds = Bounds(maxRow: int, maxCol: int)

  /** `frame` is the per-entity frame counter; `flagged` is the explicitly set expiry flag. */
  datatype Entity = Entity(
    kind: Kind,
    hitPoint: Option<int>,
    shape: seq<seq<char>>,
    colorMap: Option<seq<seq<Color>>>,
    current: Point,
    previous: Point,
    velocity: Point,
    flagged: bool,
    frame: int)

  /** One cell of an image: a character and colour for playfield cell (row, col). */
  datatype Pixel = Pixel(ch: char, color: Color, row: int, col: int)

  /** The outcome of the colour map getter's dimension check. `Faulted` is the case where the
      check indexes past the end of a stored map that has fewer rows than the shape. */
  datatype Scan = Matched | Mismatched | Faulted

  /** Well-typed: a non-empty shape, and hit points exactly for creatures. */
  ghost predicate Shaped(e: Entity)
  {
    |e.shape| > 0 && (e.kind == ProjectileKind <==> e.hitPoint.None?)
  }

  /** An entity as the base constructor leaves it: both locations at (0, 0), frame counter 0,
      no colour map and the expiry flag unset. */
  function Fresh(kind: Kind, hitPoint: Option<int>, shape: seq<seq<char>>, velocity: Point): (e: Entity)
    ensures e.current == Point(0, 0) && e.previous == Point(0, 0)
    ensures e.frame == 0 && !e.flagged && e.colorMap.None?
    ensures e.kind == kind && e.hitPoint == hitPoint && e.shape == shape && e.velocity == velocity
  {
    Entity(kind, hitPoint, shape, None, Point(0, 0), Point(0, 0), velocity, false, 0)
  }

  /** The length of the longest row of a shape. */
  function Width(shape: seq<seq<char>>): (w: nat)
    requires |shape| > 0
    ensures forall i :: 0 <= i < |shape| ==> |shape[i]| <= w
    ensures exists i :: 0 <= i < |shape| && |shape[i]| == w
  {
    if |shape| == 1 then |shape[0]|
    else
      var rest := Width(shape[1..]);
      assert forall i :: 1 <= i < |shape| ==> shape[i] == shape[1..][i - 1];
      if |shape[0]| > rest then |shape[0]|
      else
        var i :| 0 <= i < |shape[1..]| && |shape[1..][i]| == rest;
        assert |shape[i + 1]| == rest;
        rest
  }

  /** The largest top-left row at which the whole shape stays within the bounds. */
  function RowLimit(b: Bounds, shape: seq<seq<char>>): int
  {
    b.maxRow - |shape| + 1
  }

  /** The largest top-left column at which the whole shape stays within the bounds. */
  function ColLimit(b: Bounds, shape: seq<seq<char>>): int
    requires |shape| > 0
  {
    b.maxCol - Width(shape) + 1
  }

  /** The shape fits in the playfield at all. */
  ghost predicate Fits(b: Bounds, shape: seq<seq<char>>)
  {
    |shape| > 0 && RowLimit(b, shape) >= 0 && ColLimit(b, shape) >= 0
  }

  /** A top-left location at which the whole shape lies in [0, maxRow] x [0, maxCol]. */
  ghost predicate InRange(b: Bounds, shape: seq<seq<char>>, p: Point)
    requires |shape| > 0
  {
    0 <= p.row <= RowLimit(b, shape) && 0 <= p.col <= ColLimit(b, shape)
  }

  /** Clamps one coordinate into [0, lim]: non-positive values go to 0, values at or past the
      limit go to the limit. */
  function ClampAxis(v: int, lim: int): (r: int)
    ensures lim >= 0 ==> 0 <= r <= lim
    ensures 0 <= v <= lim ==> r == v
    ensures v <= 0 ==> r == 0
    ensures v > 0 && v >= lim ==> r == lim
  {
    if v > 0 then (if v < lim then v else lim) else 0
  }

  /** The location the setter stores for a requested location p. */
  function Clamp(b: Bounds, shape: seq<seq<char>>, p: Point): (r: Point)
    requires |shape| > 0
    ensures Fits(b, shape) ==> InRange(b, shape, r)
    ensures InRange(b, shape, p) ==> r == p
    ensures r.row == ClampAxis(p.row, RowLimit(b, shape)) && r.col == ClampAxis(p.col, ColLimit(b, shape))
  {
    Point(ClampAxis(p.row, RowLimit(b, shape)), ClampAxis(p.col, ColLimit(b, shape)))
  }

  /** The `CurrentLocation` setter: the old current location becomes the previous one, and
      the requested location is stored clamped. Nothing else changes. */
  function SetLocation(e: Entity, b: Bounds, p: Point): (r: Entity)
    requires |e.shape| > 0
    ensures r == e.(previous := e.current, current := Clamp(b, e.shape, p))
    ensures Fits(b, e.shape) ==> InRange(b, e.shape, r.current)
    ensures InRange(b, e.shape, p) ==> r.current == p
  {
    e.(previous := e.current, current := Clamp(b, e.shape, p))
  }

  /** Every row of the colour map is as long as the matching row of the shape. */
  ghost predicate RowsMatch(shape: seq<seq<char>>, cm: seq<seq<Color>>)
  {
    |cm| >= |shape| && forall k :: 0 <= k < |shape| ==> |cm[k]| == |shape[k]|
  }

  /** A map that is absent or matches the shape: the getter can read it without faulting. */
  ghost predicate ColorMapOk(e: Entity)
  {
    e.colorMap.None? || RowsMatch(e.shape, e.colorMap.value)
  }

  /** A map of the shape's dimensions holding v everywhere. */
  function Uniform<T>(shape: seq<seq<char>>, v: T): (r: seq<seq<T>>)
    ensures |r| == |shape|
    ensures forall i :: 0 <= i < |shape| ==> |r[i]| == |shape[i]|
    ensures forall i, j :: 0 <= i < |shape| && 0 <= j < |shape[i]| ==> r[i][j] == v
  {
    seq(|shape|, i requires 0 <= i < |shape| => seq(|shape[i]|, j => v))
  }

  /** `SetColor`: the colour map becomes `color` everywhere, sized exactly like the shape. */
  function SetColor(e: Entity, color: Color): (r: Entity)
    ensures r.colorMap.Some? && r == e.(colorMap := r.colorMap)
    ensures |r.colorMap.value| == |e.shape| && RowsMatch(e.shape, r.colorMap.value)
    ensures forall i, j :: 0 <= i < |e.shape| && 0 <= j < |e.shape[i]| ==> r.colorMap.value[i][j] == color
  {
    e.(colorMap := Some(Uniform(e.shape, color)))
  }

  /** The getter's row-by-row dimension check from row `row` on, stopping at the first row
      whose lengths differ. */
  function ScanRows(shape: seq<seq<char>>, cm: Option<seq<seq<Color>>>, row: nat): (r: Scan)
    decreases |shape| - row
    ensures r == Matched <==>
      row >= |shape| ||
      (cm.Some? && |cm.value| >= |shape| && forall k :: row <= k < |shape| ==> |cm.value[k]| == |shape[k]|)
    ensures r == Faulted <==>
      row < |shape| && cm.Some? && |cm.value| < |shape| &&
      forall k :: row <= k < |cm.value| ==> |cm.value[k]| == |shape[k]|
  {
    if row >= |shape| then Matched
    else if cm.None? then Mismatched
    else if row >= |cm.value| then Faulted
    else if |shape[row]| != |cm.value[row]| then Mismatched
    else ScanRows(shape, cm, row + 1)
  }

  /** The `ColorMap` getter: the stored map if its rows match the shape's, otherwise (absent
      or mismatched) a freshly stored all-White map. */
  function ReadColorMap(e: Entity): (r: (Entity, seq<seq<Color>>))
    requires |e.shape| > 0 && ScanRows(e.shape, e.colorMap, 0) != Faulted
    ensures r.0 == e.(colorMap := Some(r.1))
    ensures RowsMatch(e.shape, r.1)
    ensures e.colorMap.Some? && RowsMatch(e.shape, e.colorMap.value) ==> r.1 == e.colorMap.value
    ensures !(e.colorMap.Some? && RowsMatch(e.shape, e.colorMap.value)) ==> r.1 == Uniform(e.shape, White)
  {
    if ScanRows(e.shape, e.colorMap, 0) == Matched then (e, e.colorMap.value)
    else
      var fixed := SetColor(e, White);
      (fixed, fixed.colorMap.value)
  }

  /** The getter hands back what `SetColor` stored, and stores nothing new. */
  lemma SetColorReads(e: Entity, color: Color)
    requires |e.shape| > 0
    ensures ScanRows(e.shape, SetColor(e, color).colorMap, 0) == Matched
    ensures ReadColorMap(SetColor(e, color)) == (SetColor(e, color), Uniform(e.shape, color))
  {
  }

  /** Reading the colour map twice is reading it once: after the first read the stored map
      matches the shape, so the second read returns it unchanged. */
  lemma ReadColorMapIdempotent(e: Entity)
    requires |e.shape| > 0 && ScanRows(e.shape, e.colorMap, 0) != Faulted
    ensures ScanRows(e.shape, ReadColorMap(e).0.colorMap, 0) == Matched
    ensures ReadColorMap(ReadColorMap(e).0) == ReadColorMap(e)
  {
  }

  /** An absent or matching map never makes the getter fault. */
  lemma ColorMapOkScans(e: Entity)
    requires |e.shape| > 0 && ColorMapOk(e)
    ensures ScanRows(e.shape, e.colorMap, 0) != Faulted
  {
  }

  /** The base `NextFrame`: move by the velocity through the clamping setter and count the
      frame; a player's velocity is then reset to (0, 0). */
  function NextFrame(e: Entity, b: Bounds): (r: Entity)
    requires |e.shape| > 0
    ensures r.previous == e.current && r.frame == e.frame + 1
    ensures r.current == Clamp(b, e.shape, Add(e.current, e.velocity))
    ensures r.velocity == if e.kind == PlayerKind then Point(0, 0) else e.velocity
    ensures r == e.(previous := r.previous, current := r.current, velocity := r.velocity, frame := r.frame)
  {
    var moved := SetLocation(e, b, ShiftBy(e.current, e.velocity, false).returned).(frame := e.frame + 1);
    if e.kind == PlayerKind then moved.(velocity := Point(0, 0)) else moved
  }

  /** Whether the unclamped next location would put part of the shape outside the playfield. */
  function IsOutOfBound(e: Entity, b: Bounds): (r: bool)
    requires |e.shape| > 0
    ensures r <==> !InRange(b, e.shape, Add(e.current, e.velocity))
  {
    var next := ShiftBy(e.current, e.velocity, false).returned;
    var rowInBound := next.row >= 0 && next.row <= RowLimit(b, e.shape);
    var colInBound := next.col >= 0 && next.col <= ColLimit(b, e.shape);
    !(rowInBound && colInBound)
  }

  /** An entity is out of bound exactly when its next frame has to clamp its move. */
  lemma OutOfBoundIffClamped(e: Entity, b: Bounds)
    requires Fits(b, e.shape)
    ensures IsOutOfBound(e, b) <==> NextFrame(e, b).current != Add(e.current, e.velocity)
    ensures !IsOutOfBound(e, b) ==> InRange(b, e.shape, Add(e.current, e.velocity))
  {
  }

  /** The collision test as the game computes it: this entity's left column, or the column one
      past its widest row, lies in the other's half-open column range, and likewise for its
      top row or the row just below its shape. So a collision needs this entity's box, grown
      by one cell to the right and below, to overlap the other's box. */
  function IsColliding(e: Entity, other: Entity): (r: bool)
    requires |e.shape| > 0 && |other.shape| > 0
    ensures r ==>
      && other.current.col - Width(e.shape) <= e.current.col < other.current.col + Width(other.shape)
      && other.current.row - |e.shape| <= e.current.row < other.current.row + |other.shape|
  {
    var colCheckStart := other.current.col;
    var colCheckEnd := other.current.col + Width(other.shape);
    var rowCheckStart := other.current.row;
    var rowCheckEnd := other.current.row + |other.shape|;
    var columnSpan := Width(e.shape);
    var rowSpan := |e.shape|;
    var columnsCollided :=
      (e.current.col >= colCheckStart && e.current.col < colCheckEnd) ||
      (e.current.col + columnSpan >= colCheckStart && e.current.col + columnSpan < colCheckEnd);
    var rowsCollided :=
      (e.current.row >= rowCheckStart && e.current.row < rowCheckEnd) ||
      (e.current.row + rowSpan >= rowCheckStart && e.current.row + rowSpan < rowCheckEnd);
    columnsCollided && rowsCollided
  }

  /** An entity whose top-left cell lies inside the other's bounding box collides with it. */
  lemma CornerCollides(e: Entity, other: Entity)
    requires |e.shape| > 0 && |other.shape| > 0
    requires other.current.row <= e.current.row < other.current.row + |other.shape|
    requires other.current.col <= e.current.col < other.current.col + Width(other.shape)
    ensures IsColliding(e, other)
  {
  }

  /** Collision looks at positions and shapes only, not at the expiry flag. */
  lemma CollidingIgnoresFlag(e: Entity, other: Entity, f: bool)
    requires |e.shape| > 0 && |other.shape| > 0
    ensures IsColliding(e.(flagged := f), other) == IsColliding(e, other)
  {
  }

  /** The per-variant expiry predicate: a creature expires when flagged or out of hit points,
      a projectile when flagged or about to leave the playfield. */
  function IsExpiring(e: Entity, b: Bounds): (r: bool)
    requires Shaped(e)
    ensures e.flagged ==> r
    ensures e.kind == ProjectileKind && !e.flagged ==> (r <==> !InRange(b, e.shape, Add(e.current, e.velocity)))
    ensures e.kind != ProjectileKind && !e.flagged ==> (r <==> e.hitPoint.value <= 0)
  {
    match e.kind
    case ProjectileKind => e.flagged || IsOutOfBound(e, b)
    case _ => e.flagged || e.hitPoint.value <= 0
  }

  /** The playfield cell (row, col) belongs to the shape placed with its top-left at `at`. */
  ghost predicate InFootprint(shape: seq<seq<char>>, at: Point, row: int, col: int)
  {
    0 <= row - at.row < |shape| && 0 <= col - at.col < |shape[row - at.row]|
  }

  /** The pixel is the shape's cell at its offset from `at`, coloured from the map. */
  ghost predicate OfShape(p: Pixel, shape: seq<seq<char>>, cm: seq<seq<Color>>, at: Point)
  {
    var i, j := p.row - at.row, p.col - at.col;
    && InFootprint(shape, at, p.row, p.col)
    && i < |cm| && j < |cm[i]|
    && p.ch == shape[i][j] && p.color == cm[i][j]
  }

  /** The pixel for cell (i, j) of the shape placed at `at`. */
  function ShapePixel(shape: seq<seq<char>>, cm: seq<seq<Color>>, at: Point, i: int, j: int): Pixel
    requires 0 <= i < |shape| && 0 <= j < |shape[i]| && RowsMatch(shape, cm)
  {
    Pixel(shape[i][j], cm[i][j], at.row + i, at.col + j)
  }

  /** The pixels of one shape row, left to right. */
  function RowPixels(line: seq<char>, colors: seq<Color>, row: int, col: int): (ps: seq<Pixel>)
    requires |colors| == |line|
    ensures |ps| == |line|
    ensures forall k :: 0 <= k < |line| ==> ps[k] == Pixel(line[k], colors[k], row, col + k)
  {
    seq(|line|, k requires 0 <= k < |line| => Pixel(line[k], colors[k], row, col + k))
  }

  /** The pixels of shape rows `from` onwards, placed at `at`, in the order the drawing loops
      visit them: row by row, left to right. */
  function PixelsFrom(shape: seq<seq<char>>, cm: seq<seq<Color>>, at: Point, from: nat): (ps: seq<Pixel>)
    requires RowsMatch(shape, cm)
    decreases |shape| - from
    ensures forall n :: 0 <= n < |ps| ==> OfShape(ps[n], shape, cm, at) && ps[n].row - at.row >= from
  {
    if from >= |shape| then []
    else
      var line := RowPixels(shape[from], cm[from], at.row + from, at.col);
      var rest := PixelsFrom(shape, cm, at, from + 1);
      line + rest
  }

  /** Every cell of the shape from row `from` on has its pixel in the list. */
  lemma {:induction false} PixelsFromCovers(shape: seq<seq<char>>, cm: seq<seq<Color>>, at: Point, from: nat)
    requires RowsMatch(shape, cm)
    decreases |shape| - from
    ensures forall i, j :: from <= i < |shape| && 0 <= j < |shape[i]| ==>
      ShapePixel(shape, cm, at, i, j) in PixelsFrom(shape, cm, at, from)
  {
    if from < |shape| {
      var line := RowPixels(shape[from], cm[from], at.row + from, at.col);
      var rest := PixelsFrom(shape, cm, at, from + 1);
      PixelsFromCovers(shape, cm, at, from + 1);
      assert PixelsFrom(shape, cm, at, from) == line + rest;
      forall i, j | from <= i < |shape| && 0 <= j < |shape[i]|
        ensures ShapePixel(shape, cm, at, i, j) in line + rest
      {
        if i == from {
          assert line[j] == ShapePixel(shape, cm, at, from, j);
          assert (line + rest)[j] == line[j];
        } else {
          assert ShapePixel(shape, cm, at, i, j) in rest;
        }
      }
    }
  }

  /** The pixels `Draw` paints: the shape in its colour map at `at`. */
  function ImagePixels(shape: seq<seq<char>>, cm: seq<seq<Color>>, at: Point): (ps: seq<Pixel>)
    requires RowsMatch(shape, cm)
    ensures forall n :: 0 <= n < |ps| ==> OfShape(ps[n], shape, cm, at)
  {
    PixelsFrom(shape, cm, at, 0)
  }

  /** The pixels `ErasePreviousImage` paints: a Black blank over every cell of the shape. */
  function BlankPixels(shape: seq<seq<char>>, at: Point): (ps: seq<Pixel>)
    ensures forall n :: 0 <= n < |ps| ==>
      ps[n].ch == ' ' && ps[n].color == Black && InFootprint(shape, at, ps[n].row, ps[n].col)
  {
    PixelsFrom(Uniform(shape, ' '), Uniform(shape, Black), at, 0)
  }

  /** Some pixel of ps lands on buffer cell q. */
  ghost predicate Hits(ps: seq<Pixel>, q: Point)
  {
    exists n :: 0 <= n < |ps| && Target(ps[n].row, ps[n].col) == q
  }

  /** Pixels that land on the same cell agree on what to put there. */
  ghost predicate Consistent(ps: seq<Pixel>)
  {
    forall m, n :: 0 <= m < |ps| && 0 <= n < |ps| && ps[m].row == ps[n].row && ps[m].col == ps[n].col ==>
      ps[m].ch == ps[n].ch && ps[m].color == ps[n].color
  }

  ghost predicate AllInBuffer(g: Grid, ps: seq<Pixel>)
  {
    forall n :: 0 <= n < |ps| ==> InBuffer(g, Target(ps[n].row, ps[n].col))
  }

  lemma HitsTail(ps: seq<Pixel>)
    requires |ps| > 0
    ensures forall q :: Hits(ps[1..], q) ==> Hits(ps, q)
    ensures Hits(ps, Target(ps[0].row, ps[0].col))
    ensures forall q :: Hits(ps, q) && q != Target(ps[0].row, ps[0].col) ==> Hits(ps[1..], q)
  {
    forall q | Hits(ps[1..], q)
      ensures Hits(ps, q)
    {
      var n :| 0 <= n < |ps[1..]| && Target(ps[1..][n].row, ps[1..][n].col) == q;
      assert ps[n + 1] == ps[1..][n];
    }
    forall q | Hits(ps, q) && q != Target(ps[0].row, ps[0].col)
      ensures Hits(ps[1..], q)
    {
      var n :| 0 <= n < |ps| && Target(ps[n].row, ps[n].col) == q;
      assert ps[1..][n - 1] == ps[n];
    }
  }

  lemma AllInBufferTail(g: Grid, r: Grid, ps: seq<Pixel>)
    requires |ps| > 0 && SameShape(g, r) && AllInBuffer(g, ps)
    ensures AllInBuffer(r, ps[1..])
  {
    forall n | 0 <= n < |ps[1..]| ensures InBuffer(r, Target(ps[1..][n].row, ps[1..][n].col)) {
      assert ps[1..][n] == ps[n + 1];
    }
  }

  /** Issues one `FillPixel` per pixel, in order. */
  function Paint(g: Grid, ps: seq<Pixel>): (r: Grid)
    requires Valid(g) && AllInBuffer(g, ps)
    decreases |ps|
    ensures Valid(r) && SameShape(g, r)
    ensures |g.queue| <= |r.queue| <= |g.queue| + |ps| && r.queue[..|g.queue|] == g.queue
  {
    if ps == [] then g
    else
      var first := FillPixel(g, ps[0].ch, ps[0].color, ps[0].row, ps[0].col);
      AllInBufferTail(g, first, ps);
      Paint(first, ps[1..])
  }

  /** Painting queues only cells some pixel lands on. */
  lemma {:induction false} PaintQueues(g: Grid, ps: seq<Pixel>)
    requires Valid(g) && AllInBuffer(g, ps)
    decreases |ps|
    ensures forall k :: |g.queue| <= k < |Paint(g, ps).queue| ==> Hits(ps, Paint(g, ps).queue[k])
  {
    if ps != [] {
      var first := FillPixel(g, ps[0].ch, ps[0].color, ps[0].row, ps[0].col);
      AllInBufferTail(g, first, ps);
      PaintQueues(first, ps[1..]);
      HitsTail(ps);
      var r := Paint(g, ps);
      assert r == Paint(first, ps[1..]);
      forall k | |g.queue| <= k < |r.queue| ensures Hits(ps, r.queue[k]) {
        if k < |first.queue| {
          assert r.queue[k] == r.queue[..|first.queue|][k] == first.queue[k];
        }
      }
    }
  }

  /** Painting leaves every cell no pixel lands on as it was. */
  lemma {:induction false} PaintKeeps(g: Grid, ps: seq<Pixel>, i: int, j: int)
    requires Valid(g) && AllInBuffer(g, ps)
    requires 0 <= i < g.height && 0 <= j < g.width && !Hits(ps, Point(i, j))
    decreases |ps|
    ensures Paint(g, ps).chars[i][j] == g.chars[i][j] && Paint(g, ps).colors[i][j] == g.colors[i][j]
  {
    if ps != [] {
      var first := FillPixel(g, ps[0].ch, ps[0].color, ps[0].row, ps[0].col);
      AllInBufferTail(g, first, ps);
      HitsTail(ps);
      PaintKeeps(first, ps[1..], i, j);
    }
  }

  /** When the pixels agree cell by cell, every pixel's cell ends up showing that pixel. */
  lemma {:induction false} PaintShows(g: Grid, ps: seq<Pixel>, n: int)
    requires Valid(g) && AllInBuffer(g, ps) && Consistent(ps) && 0 <= n < |ps|
    decreases |ps|, 1
    ensures Paint(g, ps).chars[ps[n].row + 2][ps[n].col + 2] == ps[n].ch
    ensures Paint(g, ps).colors[ps[n].row + 2][ps[n].col + 2] == ps[n].color
  {
    if n > 0 {
      var first := FillPixel(g, ps[0].ch, ps[0].color, ps[0].row, ps[0].col);
      AllInBufferTail(g, first, ps);
      ConsistentTail(ps);
      assert ps[n] == ps[1..][n - 1];
      PaintShows(first, ps[1..], n - 1);
    } else {
      PaintShowsFirst(g, ps);
    }
  }

  /** The first pixel's cell shows it: either a later pixel on the same cell repaints it
      with the same character and colour, or nothing touches it again. */
  lemma {:induction false} PaintShowsFirst(g: Grid, ps: seq<Pixel>)
    requires Valid(g) && AllInBuffer(g, ps) && Consistent(ps) && 0 < |ps|
    decreases |ps|, 0
    ensures Paint(g, ps).chars[ps[0].row + 2][ps[0].col + 2] == ps[0].ch
    ensures Paint(g, ps).colors[ps[0].row + 2][ps[0].col + 2] == ps[0].color
  {
    var first := FillPixel(g, ps[0].ch, ps[0].color, ps[0].row, ps[0].col);
    AllInBufferTail(g, first, ps);
    var p := ps[0];
    if Hits(ps[1..], Target(p.row, p.col)) {
      var m := Agreeing(ps);
      ConsistentTail(ps);
      PaintShowsAt(first, ps[1..], m, p.row + 2, p.col + 2, p.ch, p.color);
    } else {
      PaintKeeps(first, ps[1..], p.row + 2, p.col + 2);
    }
  }

  /** Painting one list and then another is painting their concatenation. */
  lemma {:induction false} PaintConcat(g: Grid, p: seq<Pixel>, q: seq<Pixel>)
    requires Valid(g) && AllInBuffer(g, p) && AllInBuffer(g, q)
    decreases |p|
    ensures AllInBuffer(g, p + q) && AllInBuffer(Paint(g, p), q)
    ensures Paint(Paint(g, p), q) == Paint(g, p + q)
  {
    if p == [] {
      assert p + q == q;
    } else {
      var first := FillPixel(g, p[0].ch, p[0].color, p[0].row, p[0].col);
      AllInBufferTail(g, first, p);
      PaintConcat(first, p[1..], q);
      ConcatTail(p, q);
    }
  }

  lemma ConcatTail<T>(p: seq<T>, q: seq<T>)
    requires p != []
    ensures (p + q)[0] == p[0] && (p + q)[1..] == p[1..] + q
  {
  }

  /** Buffer membership depends only on the grid's dimensions. */
  lemma SameShapeInBuffer(g: Grid, r: Grid, ps: seq<Pixel>)
    requires SameShape(g, r) && AllInBuffer(r, ps)
    ensures AllInBuffer(g, ps)
  {
  }

  /** When a later pixel lands on the first pixel's cell, it is that same pixel. */
  lemma Agreeing(ps: seq<Pixel>) returns (m: nat)
    requires 0 < |ps| && Consistent(ps) && Hits(ps[1..], Target(ps[0].row, ps[0].col))
    ensures m < |ps[1..]| && ps[1..][m] == ps[0]
  {
    m :| 0 <= m < |ps[1..]| && Target(ps[1..][m].row, ps[1..][m].col) == Target(ps[0].row, ps[0].col);
    assert ps[1..][m] == ps[m + 1];
  }

  lemma ConsistentTail(ps: seq<Pixel>)
    requires |ps| > 0 && Consistent(ps)
    ensures Consistent(ps[1..])
  {
    forall m, k | 0 <= m < |ps[1..]| && 0 <= k < |ps[1..]|
      ensures ps[1..][m].row == ps[1..][k].row && ps[1..][m].col == ps[1..][k].col ==>
        ps[1..][m].ch == ps[1..][k].ch && ps[1..][m].color == ps[1..][k].color
    {
      assert ps[1..][m] == ps[m + 1] && ps[1..][k] == ps[k + 1];
    }
  }

  /** A pixel list that stays inside a footprint hits no cell outside it. */
  lemma Unhit(ps: seq<Pixel>, shape: seq<seq<char>>, at: Point, q: Point)
    requires forall n :: 0 <= n < |ps| ==> InFootprint(shape, at, ps[n].row, ps[n].col)
    requires !InFootprint(shape, at, q.row - 2, q.col - 2)
    ensures !Hits(ps, q)
  {
    forall n | 0 <= n < |ps| ensures Target(ps[n].row, ps[n].col) != q {
    }
  }

  /** The playfield cells of the buffer: rows 2 .. maxRow + 2, columns 2 .. maxCol + 2. */
  ghost predicate Playfield(b: Bounds, q: Point)
  {
    2 <= q.row <= b.maxRow + 2 && 2 <= q.col <= b.maxCol + 2
  }

  /** The grid belongs to a game with these bounds. */
  ghost predicate Covers(g: Grid, b: Bounds)
  {
    b.maxRow == g.rows - 1 && b.maxCol == g.cols - 1
  }

  /** A confined grid's queue starts with the old queue and continues with playfield cells. */
  lemma ConfinedQueue(g: Grid, r: Grid, b: Bounds)
    requires Valid(g) && Valid(r) && Confined(g, r, b)
    ensures |g.queue| <= |r.queue|
    ensures forall k :: 0 <= k < |g.queue| ==> r.queue[k] == g.queue[k]
    ensures forall k :: |g.queue| <= k < |r.queue| ==> Playfield(b, r.queue[k])
  {
    assert forall k :: 0 <= k < |g.queue| ==> r.queue[k] == r.queue[..|g.queue|][k];
  }

  /** g evolved into r by writes inside the playfield only: same size, the old queue kept as a
      prefix, only playfield cells queued, and the border and margins untouched. */
  ghost predicate Confined(g: Grid, r: Grid, b: Bounds)
    requires Valid(g) && Valid(r)
  {
    && SameShape(g, r)
    && |g.queue| <= |r.queue| && r.queue[..|g.queue|] == g.queue
    && (forall k :: |g.queue| <= k < |r.queue| ==> Playfield(b, r.queue[k]))
    && (forall i, j :: 0 <= i < r.height && 0 <= j < r.width && !Playfield(b, Point(i, j)) ==>
          r.chars[i][j] == g.chars[i][j] && r.colors[i][j] == g.colors[i][j])
  }

  lemma ConfinedTrans(g1: Grid, g2: Grid, g3: Grid, b: Bounds)
    requires Valid(g1) && Valid(g2) && Valid(g3)
    requires Confined(g1, g2, b) && Confined(g2, g3, b)
    ensures Confined(g1, g3, b)
  {
    assert g3.queue[..|g1.queue|] == g3.queue[..|g2.queue|][..|g1.queue|];
  }

  /** The playfield sits strictly inside the border. */
  lemma PlayfieldOffBorder(g: Grid, b: Bounds, q: Point)
    requires Valid(g) && Covers(g, b) && Playfield(b, q)
    ensures InBuffer(g, q) && BorderPart(g.rows, g.cols, q.row, q.col) == Off
  {
  }

  /** Both the current and the previous location keep the whole shape on the playfield. */
  ghost predicate Placed(e: Entity, b: Bounds)
  {
    Shaped(e) && Fits(b, e.shape) && InRange(b, e.shape, e.current) && InRange(b, e.shape, e.previous)
  }

  /** A shape placed in range covers only playfield cells. */
  lemma FootprintOnPlayfield(shape: seq<seq<char>>, b: Bounds, at: Point, q: Point)
    requires Fits(b, shape) && InRange(b, shape, at)
    ensures InFootprint(shape, at, q.row - 2, q.col - 2) ==> Playfield(b, q)
  {
    assert InFootprint(shape, at, q.row - 2, q.col - 2) ==> |shape[q.row - 2 - at.row]| <= Width(shape);
  }

  /** Painting pixels inside the footprint of a shape placed in range only touches playfield
      cells. */
  lemma PaintConfined(g: Grid, ps: seq<Pixel>, b: Bounds, shape: seq<seq<char>>, at: Point)
    requires Valid(g) && Covers(g, b) && Fits(b, shape) && InRange(b, shape, at)
    requires forall n :: 0 <= n < |ps| ==> InFootprint(shape, at, ps[n].row, ps[n].col)
    ensures AllInBuffer(g, ps)
    ensures Confined(g, Paint(g, ps), b)
  {
    FootprintInBuffer(g, ps, b, shape, at);
    var r := Paint(g, ps);
    PaintQueues(g, ps);
    forall k | |g.queue| <= k < |r.queue| ensures Playfield(b, r.queue[k]) {
      var n :| 0 <= n < |ps| && Target(ps[n].row, ps[n].col) == r.queue[k];
      FootprintOnPlayfield(shape, b, at, r.queue[k]);
    }
    forall i, j | 0 <= i < r.height && 0 <= j < r.width && !Playfield(b, Point(i, j))
      ensures r.chars[i][j] == g.chars[i][j] && r.colors[i][j] == g.colors[i][j]
    {
      FootprintOnPlayfield(shape, b, at, Point(i, j));
      Unhit(ps, shape, at, Point(i, j));
      PaintKeeps(g, ps, i, j);
    }
  }

  /** Pixels inside the footprint of a shape placed in range land inside the buffer. */
  lemma FootprintInBuffer(g: Grid, ps: seq<Pixel>, b: Bounds, shape: seq<seq<char>>, at: Point)
    requires Valid(g) && Covers(g, b) && Fits(b, shape) && InRange(b, shape, at)
    requires forall n :: 0 <= n < |ps| ==> InFootprint(shape, at, ps[n].row, ps[n].col)
    ensures AllInBuffer(g, ps)
  {
    forall n | 0 <= n < |ps| ensures InBuffer(g, Target(ps[n].row, ps[n].col)) {
      FootprintOnPlayfield(shape, b, at, Target(ps[n].row, ps[n].col));
    }
  }

  /** `ErasePreviousImage`: paints a Black blank over every cell of the shape at the previous
      location; all of those cells lie on the playfield. Cells already queued stay queued,
      in order, ahead of the ones erasing adds. */
  function ErasePreviousImage(e: Entity, g: Grid, b: Bounds): (r: Grid)
    requires Valid(g) && Covers(g, b) && Placed(e, b)
    ensures Valid(r) && SameShape(g, r)
    ensures |g.queue| <= |r.queue| && r.queue[..|g.queue|] == g.queue
  {
    var ps := BlankPixels(e.shape, e.previous);
    FootprintInBuffer(g, ps, b, e.shape, e.previous);
    Paint(g, ps)
  }

  /** Erasing writes inside the playfield only. */
  lemma EraseConfined(e: Entity, g: Grid, b: Bounds)
    requires Valid(g) && Covers(g, b) && Placed(e, b)
    ensures Confined(g, ErasePreviousImage(e, g, b), b)
  {
    EraseIsPaint(e, g, b);
    PaintConfined(g, BlankPixels(e.shape, e.previous), b, e.shape, e.previous);
  }

  /** After erasing, each cell of the previous footprint is a Black blank. */
  lemma EraseCovers(e: Entity, g: Grid, b: Bounds, i: int, j: int)
    requires Valid(g) && Covers(g, b) && Placed(e, b)
    requires InFootprint(e.shape, e.previous, i - 2, j - 2)
    ensures 0 <= i < g.height && 0 <= j < g.width
    ensures Shows(ErasePreviousImage(e, g, b), i, j, ' ', Black)
  {
    BlanksShow(g, b, e.shape, e.previous, i, j);
    EraseIsPaint(e, g, b);
  }

  /** Painting the blanks of a footprint placed in range leaves each of its cells a Black
      blank. */
  lemma BlanksShow(g: Grid, b: Bounds, shape: seq<seq<char>>, at: Point, i: int, j: int)
    requires Valid(g) && Covers(g, b) && Fits(b, shape) && InRange(b, shape, at)
    requires InFootprint(shape, at, i - 2, j - 2)
    ensures 0 <= i < g.height && 0 <= j < g.width && AllInBuffer(g, BlankPixels(shape, at))
    ensures Shows(Paint(g, BlankPixels(shape, at)), i, j, ' ', Black)
  {
    var ps := BlankPixels(shape, at);
    FootprintInBuffer(g, ps, b, shape, at);
    FootprintOnPlayfield(shape, b, at, Point(i, j));
    var n := BlankPixelAt(shape, at, i - 2, j - 2);
    BlanksConsistent(shape, at);
    PaintShowsCell(g, ps, n, i, j, ' ', Black);
  }

  lemma EraseIsPaint(e: Entity, g: Grid, b: Bounds)
    requires Valid(g) && Covers(g, b) && Placed(e, b)
    ensures AllInBuffer(g, BlankPixels(e.shape, e.previous))
    ensures ErasePreviousImage(e, g, b) == Paint(g, BlankPixels(e.shape, e.previous))
  {
    FootprintInBuffer(g, BlankPixels(e.shape, e.previous), b, e.shape, e.previous);
  }

  /** After erasing, every cell outside the previous footprint is as it was. */
  lemma EraseKeeps(e: Entity, g: Grid, b: Bounds, i: int, j: int)
    requires Valid(g) && Covers(g, b) && Placed(e, b) && 0 <= i < g.height && 0 <= j < g.width
    requires !InFootprint(e.shape, e.previous, i - 2, j - 2)
    ensures ErasePreviousImage(e, g, b).chars[i][j] == g.chars[i][j]
    ensures ErasePreviousImage(e, g, b).colors[i][j] == g.colors[i][j]
  {
    var ps := BlankPixels(e.shape, e.previous);
    FootprintInBuffer(g, ps, b, e.shape, e.previous);
    Unhit(ps, e.shape, e.previous, Point(i, j));
    PaintKeeps(g, ps, i, j);
  }

  /** Every footprint cell has its blank among the erasing pixels. */
  lemma BlankPixelAt(shape: seq<seq<char>>, at: Point, row: int, col: int) returns (n: nat)
    requires InFootprint(shape, at, row, col)
    ensures n < |BlankPixels(shape, at)| && BlankPixels(shape, at)[n] == Pixel(' ', Black, row, col)
  {
    var ps := BlankPixels(shape, at);
    var blanks, blacks := Uniform(shape, ' '), Uniform(shape, Black);
    var p := ShapePixel(blanks, blacks, at, row - at.row, col - at.col);
    PixelsFromCovers(blanks, blacks, at, 0);
    assert p in ps;
    n :| 0 <= n < |ps| && ps[n] == p;
  }

  lemma BlanksConsistent(shape: seq<seq<char>>, at: Point)
    ensures Consistent(BlankPixels(shape, at))
  {
  }

  /** `Draw`: erase the previous image, then paint the shape in its colour map at the current
      location. The colour map is read through the getter, which stores a White map when the
      entity has none; every write lies on the playfield. */
  function Draw(e: Entity, g: Grid, b: Bounds): (r: (Entity, Grid))
    requires Valid(g) && Covers(g, b) && Placed(e, b) && ColorMapOk(e)
    ensures r.0.colorMap.Some? && r.0 == e.(colorMap := r.0.colorMap)
    ensures RowsMatch(e.shape, r.0.colorMap.value)
    ensures e.colorMap.Some? ==> r.0 == e
    ensures e.colorMap.None? ==> r.0.colorMap.value == Uniform(e.shape, White)
    ensures Valid(r.1) && SameShape(g, r.1)
  {
    var erased := ErasePreviousImage(e, g, b);
    ColorMapOkScans(e);
    var read := ReadColorMap(e);
    var ps := ImagePixels(e.shape, read.1, e.current);
    FootprintInBuffer(erased, ps, b, e.shape, e.current);
    (read.0, Paint(erased, ps))
  }

  /** Drawing writes inside the playfield only. */
  lemma DrawConfined(e: Entity, g: Grid, b: Bounds)
    requires Valid(g) && Covers(g, b) && Placed(e, b) && ColorMapOk(e)
    ensures Confined(g, Draw(e, g, b).1, b)
  {
    var erased := ErasePreviousImage(e, g, b);
    EraseConfined(e, g, b);
    DrawIsPaint(e, g, b);
    PaintConfined(erased, ImagePixels(e.shape, ReadColorMap(e).1, e.current), b, e.shape, e.current);
    ConfinedTrans(g, erased, Draw(e, g, b).1, b);
  }

  /** `Draw` paints the image pixels over the erased grid and stores what the getter read. */
  lemma DrawIsPaint(e: Entity, g: Grid, b: Bounds)
    requires Valid(g) && Covers(g, b) && Placed(e, b) && ColorMapOk(e)
    ensures ScanRows(e.shape, e.colorMap, 0) != Faulted
    ensures Draw(e, g, b).0 == ReadColorMap(e).0
    ensures AllInBuffer(ErasePreviousImage(e, g, b), ImagePixels(e.shape, ReadColorMap(e).1, e.current))
    ensures Draw(e, g, b).1 == Paint(ErasePreviousImage(e, g, b), ImagePixels(e.shape, ReadColorMap(e).1, e.current))
  {
    ColorMapOkScans(e);
    FootprintInBuffer(ErasePreviousImage(e, g, b), ImagePixels(e.shape, ReadColorMap(e).1, e.current), b, e.shape, e.current);
  }

  /** The drawing pixels of a shape agree cell by cell. */
  lemma ImageConsistent(shape: seq<seq<char>>, cm: seq<seq<Color>>, at: Point)
    requires RowsMatch(shape, cm)
    ensures Consistent(ImagePixels(shape, cm, at))
  {
  }

  /** Every footprint cell has its pixel among the drawing pixels. */
  lemma ImagePixelAt(shape: seq<seq<char>>, cm: seq<seq<Color>>, at: Point, r: int, c: int) returns (n: nat)
    requires RowsMatch(shape, cm) && 0 <= r < |shape| && 0 <= c < |shape[r]|
    ensures n < |ImagePixels(shape, cm, at)|
    ensures ImagePixels(shape, cm, at)[n] == Pixel(shape[r][c], cm[r][c], at.row + r, at.col + c)
  {
    var ps := ImagePixels(shape, cm, at);
    var p := ShapePixel(shape, cm, at, r, c);
    PixelsFromCovers(shape, cm, at, 0);
    assert p in ps;
    n :| 0 <= n < |ps| && ps[n] == p;
  }


  /** After drawing, the buffer cell of each shape cell (r, c) shows the shape's character
      in the colour the getter read from the colour map (the buffer sits two cells in from
      the playfield's origin). */
  lemma DrawShows(e: Entity, g: Grid, b: Bounds, r: int, c: int)
    requires Valid(g) && Covers(g, b) && Placed(e, b) && ColorMapOk(e)
    requires 0 <= r < |e.shape| && 0 <= c < |e.shape[r]|
    ensures RowsMatch(e.shape, Draw(e, g, b).0.colorMap.value)
    ensures Shows(Draw(e, g, b).1, e.current.row + r + 2, e.current.col + c + 2, e.shape[r][c],
                  Draw(e, g, b).0.colorMap.value[r][c])
  {
    DrawIsPaint(e, g, b);
    var cm := ReadColorMap(e).1;
    ImageShows(ErasePreviousImage(e, g, b), e.shape, cm, e.current, r, c,
               e.current.row + r + 2, e.current.col + c + 2, e.shape[r][c], cm[r][c]);
  }

  /** Painting the image of a shape, when it lies in the buffer, shows in buffer cell
      (i, j) of each shape cell (r, c) the shape's character ch in the map's colour. */
  lemma ImageShows(g: Grid, shape: seq<seq<char>>, cm: seq<seq<Color>>, at: Point, r: int, c: int,
                   i: int, j: int, ch: char, color: Color)
    requires Valid(g) && RowsMatch(shape, cm) && AllInBuffer(g, ImagePixels(shape, cm, at))
    requires 0 <= r < |shape| && 0 <= c < |shape[r]|
    requires i == at.row + r + 2 && j == at.col + c + 2 && ch == shape[r][c] && color == cm[r][c]
    ensures Shows(Paint(g, ImagePixels(shape, cm, at)), i, j, ch, color)
  {
    var n := ImagePixelAt(shape, cm, at, r, c);
    ImageConsistent(shape, cm, at);
    PaintShowsCell(g, ImagePixels(shape, cm, at), n, i, j, ch, color);
  }

  /** `PaintShowsAt`, stated as what the painted buffer shows. */
  lemma PaintShowsCell(g: Grid, ps: seq<Pixel>, n: int, i: int, j: int, c: char, color: Color)
    requires Valid(g) && AllInBuffer(g, ps) && Consistent(ps) && 0 <= n < |ps|
    requires ps[n] == Pixel(c, color, i - 2, j - 2)
    ensures Shows(Paint(g, ps), i, j, c, color)
  {
    assert InBuffer(g, Target(ps[n].row, ps[n].col));
    PaintShowsAt(g, ps, n, i, j, c, color);
  }


  /** `PaintShows` for a pixel known by its contents. */
  lemma PaintShowsAt(g: Grid, ps: seq<Pixel>, n: int, i: int, j: int, c: char, color: Color)
    requires Valid(g) && AllInBuffer(g, ps) && Consistent(ps) && 0 <= n < |ps|
    requires ps[n] == Pixel(c, color, i - 2, j - 2)
    decreases |ps|, 2
    ensures Paint(g, ps).chars[i][j] == c && Paint(g, ps).colors[i][j] == color
  {
    PaintShows(g, ps, n);
  }

  /** After drawing, cells outside both the previous and the current footprint are as they
      were. */
  lemma DrawKeeps(e: Entity, g: Grid, b: Bounds, i: int, j: int)
    requires Valid(g) && Covers(g, b) && Placed(e, b) && ColorMapOk(e)
    requires 0 <= i < g.height && 0 <= j < g.width
    requires !InFootprint(e.shape, e.previous, i - 2, j - 2) && !InFootprint(e.shape, e.current, i - 2, j - 2)
    ensures Draw(e, g, b).1.chars[i][j] == g.chars[i][j] && Draw(e, g, b).1.colors[i][j] == g.colors[i][j]
  {
    DrawIsPaint(e, g, b);
    var erased := ErasePreviousImage(e, g, b);
    var ps := ImagePixels(e.shape, ReadColorMap(e).1, e.current);
    EraseKeeps(e, g, b, i, j);
    Unhit(ps, e.shape, e.current, Point(i, j));
    PaintKeeps(erased, ps, i, j);
  }
}

=== FILE: game.dfy ===
/** The game (Game.cs): the entity list, the kill count and the grid, advanced one frame at a
    time by `Update` and steered by `KeyAction`. The random generator's draws and the pressed
    keys are parameters. */
module Games {
  import opened Points
  import opened Results
  import opened Ints
  import opened Grids
  import opened Entities
  import opened Creatures
  import opened Players
  import opened Enemies
  import opened Projectiles
  import opened Rosters

  const DefaultRows: int := 24
  const DefaultCols: int := 48
  const DefaultFramesPerSecond: int := 30

  /** Enemies per wave, and the column distance between neighbouring spawn locations. */
  const SquadSize: int := 8
  const SquadSpacing: int := 6

  /** Bullets fly one row up per frame. */
  const BulletVelocity: Point := Point(-1, 0)

  /** A colour the enemy spawner can draw: any console colour but Black. */
  type Hue = c: int | 1 <= c < 16 witness 1

  /** The keys the game reacts to; `Other` stands for every other key. */
  datatype Key = Escape | LeftArrow | RightArrow | UpArrow | DownArrow | Spacebar | CKey | Other

  datatype Game = Game(
    grid: Grid,
    bounds: Bounds,
    roster: seq<Entity>,
    killCount: int,
    running: bool,
    framesPerSecond: int)

  /** An entity as the game keeps it between frames: placed, with a readable colour map,
      unflagged, and a creature with hit points left. */
  ghost predicate Sound(e: Entity, b: Bounds)
  {
    Placed(e, b) && ColorMapOk(e) && !e.flagged && (e.kind != ProjectileKind ==> e.hitPoint.value > 0)
  }

  ghost predicate AllSound(rs: seq<Entity>, b: Bounds)
  {
    forall i :: 0 <= i < |rs| ==> Sound(rs[i], b)
  }

  /** The game invariant: a valid grid the bounds describe, a non-negative kill count, every
      entity sound, and exactly one player. */
  ghost predicate Inv(gm: Game)
  {
    && Valid(gm.grid) && Covers(gm.grid, gm.bounds)
    && gm.killCount >= 0
    && AllSound(gm.roster, gm.bounds)
    && Count(gm.roster, PlayerKind) == 1
  }

  /** Every grid the constructor accepts leaves room for each entity shape. */
  lemma ShapesFit(g: Grid, b: Bounds)
    requires Valid(g) && Covers(g, b)
    ensures b.maxRow >= MinRows - 1 && b.maxCol >= MinCols - 1
    ensures Fits(b, PlayerShape) && Fits(b, EnemyShape) && Fits(b, ProjectileShape)
  {
    assert |PlayerShape[0]| == 4 && |ProjectileShape[0]| == 1;
    EnemyWidth();
  }

  /** Enemy i of a wave, coloured with the i-th draw. */
  function Recruit(b: Bounds, hues: seq<Hue>, i: int): (r: Entity)
    requires 0 <= i < |hues|
    ensures Shaped(r) && r.kind == EnemyKind && r.shape == EnemyShape && r.hitPoint == Some(DefaultHitPoint)
    ensures r.velocity == Point(0, 0) && !r.flagged && r.current == Clamp(b, EnemyShape, Point(1, 1 + i * SquadSpacing))
  {
    SetColor(NewEnemy(b, Point(1, 1 + i * SquadSpacing), DefaultHitPoint), hues[i])
  }

  /** The enemies of one wave, in the order they are added: along row 1, six columns apart
      from column 1, each in its own drawn colour. */
  method Wave(b: Bounds, hues: seq<Hue>) returns (wave: seq<Entity>)
    requires |hues| == SquadSize
    ensures |wave| == SquadSize
    ensures forall i :: 0 <= i < SquadSize ==> wave[i] == Recruit(b, hues, i)
  {
    wave := [];
    var i := 0;
    while i < SquadSize
      invariant 0 <= i <= SquadSize && |wave| == i
      invariant forall k :: 0 <= k < i ==> wave[k] == Recruit(b, hues, k)
    {
      wave := wave + [Recruit(b, hues, i)];
      i := i + 1;
    }
  }

  /** `SpawnEnemies`: appends a wave of one-hit-point enemies to the list. */
  method SpawnEnemies(rs: seq<Entity>, b: Bounds, hues: seq<Hue>) returns (r: seq<Entity>)
    requires |hues| == SquadSize
    ensures |r| == |rs| + SquadSize && r[..|rs|] == rs
    ensures forall i :: 0 <= i < SquadSize ==> r[|rs| + i] == Recruit(b, hues, i)
  {
    var wave := Wave(b, hues);
    r := rs + wave;
    assert r[..|rs|] == rs;
  }

  /** Every recruit is a sound, stationary enemy in its drawn colour; on a playfield wide
      enough for the whole wave it sits exactly at its spawn location. */
  lemma RecruitLayout(b: Bounds, hues: seq<Hue>, i: int)
    requires Fits(b, EnemyShape) && 0 <= i < |hues|
    ensures Sound(Recruit(b, hues, i), b) && Recruit(b, hues, i).kind == EnemyKind
    ensures Recruit(b, hues, i).velocity == Point(0, 0)
    ensures forall r, c :: 0 <= r < |EnemyShape| && 0 <= c < |EnemyShape[r]| ==>
      Recruit(b, hues, i).colorMap.value[r][c] == hues[i]
    ensures b.maxRow >= |EnemyShape| ==> Recruit(b, hues, i).current.row == 1
    ensures 1 + i * SquadSpacing <= b.maxCol - 3 ==> Recruit(b, hues, i).current.col == 1 + i * SquadSpacing
  {
    var spawn := Point(1, 1 + i * SquadSpacing);
    var e := NewEnemy(b, spawn, DefaultHitPoint);
    EnemyWidth();
    EnemyStays(b, spawn, DefaultHitPoint);
    assert Recruit(b, hues, i) == SetColor(e, hues[i]);
    assert b.maxRow >= |EnemyShape| && spawn.col <= b.maxCol - 3 ==> InRange(b, EnemyShape, spawn);
  }

  /** On the default 24 x 48 playfield the wave stands on row 1, in columns 1, 7, ..., 43. */
  lemma DefaultLayout(hues: seq<Hue>, i: int)
    requires |hues| == SquadSize && 0 <= i < SquadSize
    ensures Recruit(Bounds(DefaultRows - 1, DefaultCols - 1), hues, i).current == Point(1, 1 + 6 * i)
  {
    var b := Bounds(DefaultRows - 1, DefaultCols - 1);
    EnemyWidth();
    RecruitLayout(b, hues, i);
  }

  /** A wave adds eight sound enemies and no player. */
  lemma WaveCounts(rs: seq<Entity>, r: seq<Entity>, b: Bounds, hues: seq<Hue>)
    requires Fits(b, EnemyShape) && |hues| == SquadSize && AllSound(rs, b)
    requires |r| == |rs| + SquadSize && r[..|rs|] == rs
    requires forall i :: 0 <= i < SquadSize ==> r[|rs| + i] == Recruit(b, hues, i)
    ensures AllSound(r, b)
    ensures Count(r, EnemyKind) == Count(rs, EnemyKind) + SquadSize
    ensures Count(r, PlayerKind) == Count(rs, PlayerKind)
    ensures Count(r, ProjectileKind) == Count(rs, ProjectileKind)
  {
    WaveSound(rs, r, b, hues);
    var wave := r[|rs|..];
    assert r == rs + wave;
    CountConcat(rs, wave, EnemyKind);
    CountConcat(rs, wave, PlayerKind);
    CountConcat(rs, wave, ProjectileKind);
    forall i | 0 <= i < |wave| ensures wave[i].kind == EnemyKind {
      assert wave[i] == Recruit(b, hues, i);
    }
    WaveKinds(wave);
  }

  lemma WaveSound(rs: seq<Entity>, r: seq<Entity>, b: Bounds, hues: seq<Hue>)
    requires Fits(b, EnemyShape) && |hues| == SquadSize && AllSound(rs, b)
    requires |r| == |rs| + SquadSize && r[..|rs|] == rs
    requires forall i :: 0 <= i < SquadSize ==> r[|rs| + i] == Recruit(b, hues, i)
    ensures AllSound(r, b)
  {
    var wave := r[|rs|..];
    forall j | 0 <= j < |wave| ensures Sound(wave[j], b) {
      assert wave[j] == r[|rs| + j];
      RecruitLayout(b, hues, j);
    }
    forall i | 0 <= i < |r| ensures Sound(r[i], b) {
      if i < |rs| {
        assert r[i] == r[..|rs|][i];
      } else {
        assert r[i] == wave[i - |rs|];
      }
    }
  }

  /** A list of enemies only counts each of them as an enemy and none as a player. */
  lemma {:induction false} WaveKinds(wave: seq<Entity>)
    requires forall i :: 0 <= i < |wave| ==> wave[i].kind == EnemyKind
    ensures Count(wave, EnemyKind) == |wave| && Count(wave, PlayerKind) == 0 && Count(wave, ProjectileKind) == 0
  {
    if wave != [] {
      assert forall i :: 1 <= i < |wave| ==> wave[i] == wave[1..][i - 1];
      WaveKinds(wave[1..]);
    }
  }

  /** After hit marking the list is still placed and readable, has the same kinds, and the
      player is still not expiring. */
  lemma MarkedReady(rs: seq<Entity>, b: Bounds)
    requires AllSound(rs, b)
    ensures AllShaped(rs)
    ensures AllPlaced(Mark(rs, b, 0).0, b) && AllMapsOk(Mark(rs, b, 0).0)
    ensures SameKinds(rs, Mark(rs, b, 0).0)
    ensures forall i :: 0 <= i < |rs| && Mark(rs, b, 0).0[i].kind == PlayerKind ==> !IsExpiring(Mark(rs, b, 0).0[i], b)
  {
    var t := Mark(rs, b, 0).0;
    MarkGrows(rs, b, 0);
    MarkKeeps(rs, b, 0);
    forall i | 0 <= i < |rs| ensures Placed(t[i], b) && ColorMapOk(t[i]) && t[i].kind == rs[i].kind {
      assert t[i] == rs[i].(flagged := t[i].flagged);
    }
  }

  /** Whatever survives removal is sound again. */
  lemma SurvivorsSound(t: seq<Entity>, b: Bounds)
    requires AllPlaced(t, b) && AllMapsOk(t)
    ensures AllShaped(t) && AllSound(Survivors(t, b), b)
  {
    var s := Survivors(t, b);
    SurvivorsMembers(t, b);
    forall i | 0 <= i < |s| ensures Sound(s[i], b) {
      assert s[i] in s;
      var j :| 0 <= j < |t| && t[j] == s[i];
    }
  }

  /** Advancing a sound list keeps it sound and keeps its kinds. */
  lemma AdvanceSound(rs: seq<Entity>, g: Grid, b: Bounds)
    requires Valid(g) && Covers(g, b) && AllSound(rs, b)
    ensures AllPlaced(rs, b) && AllMapsOk(rs)
    ensures AllSound(Advance(rs, g, b).0, b) && SameKinds(rs, Advance(rs, g, b).0)
  {
    AdvanceKeeps(rs, g, b);
    StepsAt(rs, b);
    var t := Advance(rs, g, b).0;
    forall i | 0 <= i < |rs| ensures Sound(t[i], b) {
    }
  }

  /** On a sound list, where nothing is flagged yet, every kill the marking pass counts
      flags exactly one enemy and exactly one projectile. */
  lemma MarkCounts(rs: seq<Entity>, b: Bounds)
    requires AllSound(rs, b)
    ensures AllShaped(rs)
    ensures FlagCount(Mark(rs, b, 0).0, EnemyKind) == Mark(rs, b, 0).1
    ensures FlagCount(Mark(rs, b, 0).0, ProjectileKind) == Mark(rs, b, 0).1
  {
    MarkedReady(rs, b);
    FlagCountBound(rs, EnemyKind);
    FlagCountBound(rs, ProjectileKind);
    MarkFlagsShooters(rs, b, 0);
    MarkFlagsEnemies(rs, b, 0);
  }

  /** The entities a frame's removal pass keeps: the hit-marking pass, then every entity
      that is not expiring, in order. */
  ghost function Survived(rs: seq<Entity>, b: Bounds): (s: seq<Entity>)
    requires AllShaped(rs)
    ensures AllShaped(s)
  {
    var marked := Mark(rs, b, 0).0;
    SurvivorsShaped(marked, b);
    Survivors(marked, b)
  }

  /** The survivors of a list of shaped entities are shaped. */
  lemma SurvivorsShaped(rs: seq<Entity>, b: Bounds)
    requires AllShaped(rs)
    ensures AllShaped(Survivors(rs, b))
  {
    var s := Survivors(rs, b);
    SurvivorsMembers(rs, b);
    forall i | 0 <= i < |s| ensures Shaped(s[i]) {
      assert s[i] in s;
      var j :| 0 <= j < |rs| && rs[j] == s[i];
    }
  }

  /** One whole wave, in the order `SpawnEnemies` appends it. */
  ghost function Recruits(b: Bounds, hues: seq<Hue>): (w: seq<Entity>)
    requires |hues| == SquadSize
    ensures |w| == SquadSize && forall i :: 0 <= i < SquadSize ==> w[i] == Recruit(b, hues, i)
  {
    seq(SquadSize, i requires 0 <= i < SquadSize => Recruit(b, hues, i))
  }

  /** The roster after the culling half of a frame: the survivors, followed by a new wave
      when no enemy is among them. */
  ghost function Culled(rs: seq<Entity>, b: Bounds, hues: seq<Hue>): (c: seq<Entity>)
    requires AllShaped(rs) && |hues| == SquadSize
    ensures AllShaped(c)
  {
    var s := Survived(rs, b);
    if Count(s, EnemyKind) > 0 then s else s + Recruits(b, hues)
  }

  /** Hit marking, then removal of expiring entities (erasing their images). Every kill
      flags one enemy and spends one projectile; the player always survives; without
      projectiles nothing changes. */
  method Remove(gm: Game) returns (roster: seq<Entity>, grid: Grid, kills: nat)
    requires Inv(gm)
    ensures AllSound(roster, gm.bounds) && Count(roster, PlayerKind) == 1
    ensures Valid(grid) && Confined(gm.grid, grid, gm.bounds)
    ensures AllShaped(gm.roster)
    ensures kills == FlagCount(Mark(gm.roster, gm.bounds, 0).0, EnemyKind)
    ensures kills == FlagCount(Mark(gm.roster, gm.bounds, 0).0, ProjectileKind)
    ensures roster == Survived(gm.roster, gm.bounds)
    ensures Count(gm.roster, ProjectileKind) == 0 ==> roster == gm.roster && kills == 0
    ensures AllInBuffer(gm.grid, ErasedPixels(Mark(gm.roster, gm.bounds, 0).0, gm.bounds))
    ensures grid == Paint(gm.grid, ErasedPixels(Mark(gm.roster, gm.bounds, 0).0, gm.bounds))
  {
    var b := gm.bounds;
    ShapesFit(gm.grid, b);
    MarkedReady(gm.roster, b);
    MarkCounts(gm.roster, b);
    var marked := Mark(gm.roster, b, 0);
    kills := marked.1;
    CountSameKinds(gm.roster, marked.0, PlayerKind);
    var swept := Sweep(marked.0, gm.grid, b);
    SweepSurvivors(marked.0, gm.grid, b);
    SweepErases(marked.0, gm.grid, b);
    grid := swept.1;
    SurvivorsSound(marked.0, b);
    SurvivorsCount(marked.0, b, PlayerKind);
    roster := swept.0;
    if Count(gm.roster, ProjectileKind) == 0 {
      MarkQuiet(gm.roster, b, 0);
      QuietSurvives(gm.roster, b);
    }
  }

  /** The first half of `Update`: `Remove`, then a new wave when no enemy is left. */
  method Cull(gm: Game, hues: seq<Hue>) returns (roster: seq<Entity>, grid: Grid, kills: nat)
    requires Inv(gm) && |hues| == SquadSize
    ensures AllSound(roster, gm.bounds) && Count(roster, PlayerKind) == 1 && Count(roster, EnemyKind) > 0
    ensures Valid(grid) && Confined(gm.grid, grid, gm.bounds)
    ensures AllShaped(gm.roster)
    ensures kills == FlagCount(Mark(gm.roster, gm.bounds, 0).0, EnemyKind)
    ensures kills == FlagCount(Mark(gm.roster, gm.bounds, 0).0, ProjectileKind)
    ensures Count(gm.roster, ProjectileKind) == 0 && Count(gm.roster, EnemyKind) > 0 ==>
      roster == gm.roster && kills == 0
    ensures roster == Culled(gm.roster, gm.bounds, hues)
    ensures AllInBuffer(gm.grid, ErasedPixels(Mark(gm.roster, gm.bounds, 0).0, gm.bounds))
    ensures grid == Paint(gm.grid, ErasedPixels(Mark(gm.roster, gm.bounds, 0).0, gm.bounds))
  {
    var survivors;
    survivors, grid, kills := Remove(gm);
    ShapesFit(gm.grid, gm.bounds);
    roster := Reinforce(survivors, gm.bounds, hues);
  }

  /** A new wave when no enemy is left on a sound list; the list is kept otherwise. */
  method Reinforce(rs: seq<Entity>, b: Bounds, hues: seq<Hue>) returns (r: seq<Entity>)
    requires Fits(b, EnemyShape) && AllSound(rs, b) && |hues| == SquadSize
    ensures AllSound(r, b) && Count(r, PlayerKind) == Count(rs, PlayerKind) && Count(r, EnemyKind) > 0
    ensures Count(rs, EnemyKind) > 0 ==> r == rs
    ensures Count(rs, EnemyKind) == 0 ==> r == rs + Recruits(b, hues)
  {
    r := rs;
    if Count(rs, EnemyKind) == 0 {
      r := SpawnEnemies(rs, b, hues);
      WaveCounts(rs, r, b, hues);
      Reinforced(rs, r, b, hues);
    }
  }

  /** The culled roster starts with the survivors; it is just them while an enemy is among
      them, and otherwise they are followed by the new wave, enemy by enemy. */
  lemma CulledLayout(rs: seq<Entity>, b: Bounds, hues: seq<Hue>)
    requires AllShaped(rs) && |hues| == SquadSize
    ensures var s := Survived(rs, b); var c := Culled(rs, b, hues);
      && |c| >= |s| && c[..|s|] == s
      && (Count(s, EnemyKind) > 0 ==> c == s)
      && (Count(s, EnemyKind) == 0 ==>
            && |c| == |s| + SquadSize
            && forall i :: 0 <= i < SquadSize ==> c[|s| + i] == Recruit(b, hues, i))
  {
    var s := Survived(rs, b);
    var c := Culled(rs, b, hues);
    assert c[..|s|] == s;
  }

  /** A list followed by the whole wave, entity by entity, is that list plus `Recruits`. */
  lemma Reinforced(s: seq<Entity>, r: seq<Entity>, b: Bounds, hues: seq<Hue>)
    requires |hues| == SquadSize
    requires |r| == |s| + SquadSize && r[..|s|] == s
    requires forall i :: 0 <= i < SquadSize ==> r[|s| + i] == Recruit(b, hues, i)
    ensures r == s + Recruits(b, hues)
  {
    var w := Recruits(b, hues);
    assert forall k :: 0 <= k < |r| ==> r[k] == (s + w)[k] by {
      forall k | 0 <= k < |r| ensures r[k] == (s + w)[k] {
        if k < |s| {
          assert r[k] == r[..|s|][k];
        } else {
          assert r[|s| + (k - |s|)] == Recruit(b, hues, k - |s|);
        }
      }
    }
  }

  /** A sound list without projectiles has nothing expiring, so removal keeps all of it. */
  lemma QuietSurvives(rs: seq<Entity>, b: Bounds)
    requires AllSound(rs, b) && Count(rs, ProjectileKind) == 0
    ensures AllShaped(rs) && Survivors(rs, b) == rs
  {
    forall i | 0 <= i < |rs| ensures !IsExpiring(rs[i], b) {
      assert rs[i].kind != ProjectileKind;
    }
    SurvivorsAll(rs, b);
  }

  /** The second half of `Update`: the advance-and-draw pass and a render. `g0` is the grid
      the frame started from: the writes first drain the cells it had queued, then cover
      playfield cells only, and each shows what the buffer ends up holding. */
  method Redraw(rs: seq<Entity>, g0: Grid, g: Grid, b: Bounds) returns (t: seq<Entity>, r: Grid, out: seq<Write>)
    requires Valid(g0) && Valid(g) && Covers(g, b) && Confined(g0, g, b) && AllSound(rs, b)
    ensures AllSound(t, b) && SameKinds(rs, t)
    ensures forall i :: 0 <= i < |rs| ==> t[i] == Stepped(rs[i], b)
    ensures Valid(r) && SameShape(g0, r) && r.queue == []
    ensures |out| >= |g0.queue|
    ensures forall k :: 0 <= k < |g0.queue| ==> Point(out[k].row, out[k].col) == g0.queue[k]
    ensures forall k :: |g0.queue| <= k < |out| ==> Playfield(b, Point(out[k].row, out[k].col))
    ensures forall k :: 0 <= k < |out| ==>
      InBuffer(r, Point(out[k].row, out[k].col)) && out[k] == Emitted(r, Point(out[k].row, out[k].col))
    ensures AllPlaced(rs, b) && AllMapsOk(rs) && AllInBuffer(g, FramePixels(rs, b))
    ensures r == Paint(g, FramePixels(rs, b)).(queue := [])
  {
    var advanced := Advance(rs, g, b);
    AdvanceFrame(rs, g0, g, b);
    AdvancePaints(rs, g, b);
    t := advanced.0;
    r, out := Render(advanced.1);
    Drained(g0, advanced.1, b, r, out);
  }

  /** Rendering a grid confined relative to `g0` first writes the cells `g0` had queued,
      then playfield cells only, each showing what the buffer holds. */
  lemma Drained(g0: Grid, g: Grid, b: Bounds, r: Grid, out: seq<Write>)
    requires Valid(g0) && Valid(g) && Confined(g0, g, b) && Valid(r) && r == g.(queue := [])
    requires |out| == |g.queue|
    requires forall k :: 0 <= k < |out| ==> Point(out[k].row, out[k].col) == g.queue[k] && out[k] == Emitted(r, g.queue[k])
    ensures |out| >= |g0.queue|
    ensures forall k :: 0 <= k < |g0.queue| ==> Point(out[k].row, out[k].col) == g0.queue[k]
    ensures forall k :: |g0.queue| <= k < |out| ==> Playfield(b, Point(out[k].row, out[k].col))
    ensures forall k :: 0 <= k < |out| ==>
      InBuffer(r, Point(out[k].row, out[k].col)) && out[k] == Emitted(r, Point(out[k].row, out[k].col))
  {
    ConfinedQueue(g0, g, b);
  }

  /** The advance pass on a sound list: the list stays sound, keeps its kinds and moves
      every entity one frame on, and the grid stays confined relative to `g0`. */
  lemma AdvanceFrame(rs: seq<Entity>, g0: Grid, g: Grid, b: Bounds)
    requires Valid(g0) && Valid(g) && Covers(g, b) && Confined(g0, g, b) && AllSound(rs, b)
    ensures AllPlaced(rs, b) && AllMapsOk(rs)
    ensures AllSound(Advance(rs, g, b).0, b) && SameKinds(rs, Advance(rs, g, b).0)
    ensures forall i :: 0 <= i < |rs| ==> Advance(rs, g, b).0[i] == Stepped(rs[i], b)
    ensures Confined(g0, Advance(rs, g, b).1, b)
  {
    AdvanceSound(rs, g, b);
    AdvanceConfined(rs, g, b);
    StepsAt(rs, b);
    ConfinedTrans(g0, g, Advance(rs, g, b).1, b);
  }

  /** `Update`, one frame: the culling half, then the redrawing half. A frame without
      projectiles moves every entity one frame on and kills nothing. */
  method Update(gm: Game, hues: seq<Hue>) returns (r: Game, out: seq<Write>)
    requires Inv(gm) && |hues| == SquadSize
    ensures Inv(r)
    ensures r.bounds == gm.bounds && r.running == gm.running && r.framesPerSecond == gm.framesPerSecond
    ensures SameShape(gm.grid, r.grid) && r.grid.queue == []
    ensures Count(r.roster, EnemyKind) > 0
    ensures AllShaped(gm.roster)
    ensures r.killCount - gm.killCount == FlagCount(Mark(gm.roster, gm.bounds, 0).0, EnemyKind)
    ensures r.killCount - gm.killCount == FlagCount(Mark(gm.roster, gm.bounds, 0).0, ProjectileKind)
    ensures |out| >= |gm.grid.queue|
    ensures forall k :: 0 <= k < |gm.grid.queue| ==> Point(out[k].row, out[k].col) == gm.grid.queue[k]
    ensures forall k :: |gm.grid.queue| <= k < |out| ==> Playfield(gm.bounds, Point(out[k].row, out[k].col))
    ensures forall k :: 0 <= k < |out| ==>
      InBuffer(r.grid, Point(out[k].row, out[k].col)) && out[k] == Emitted(r.grid, Point(out[k].row, out[k].col))
    ensures |r.roster| == |Culled(gm.roster, gm.bounds, hues)|
    ensures forall i :: 0 <= i < |r.roster| ==>
      r.roster[i] == Stepped(Culled(gm.roster, gm.bounds, hues)[i], gm.bounds)
    ensures Count(gm.roster, ProjectileKind) == 0 && Count(gm.roster, EnemyKind) > 0 ==>
      && r.killCount == gm.killCount && |r.roster| == |gm.roster|
      && forall i :: 0 <= i < |gm.roster| ==>
           r.roster[i] == Stepped(gm.roster[i], gm.bounds)
    ensures Repainted(gm, hues, r.grid)
  {
    var b := gm.bounds;
    var roster, culled, kills := Cull(gm, hues);
    var advanced, g;
    advanced, g, out := Redraw(roster, gm.grid, culled, b);
    FrameRepainted(gm, hues, roster, culled, g);
    CountSameKinds(roster, advanced, PlayerKind);
    CountSameKinds(roster, advanced, EnemyKind);
    r := Game(g, b, advanced, gm.killCount + kills, gm.running, gm.framesPerSecond);
  }

  /** What one frame leaves in the buffer, queue drained: the blanks of the removal pass
      over every expiring entity, then each entity of the culled roster erased where it
      stood and drawn one frame on, all painted in that order over the frame's first grid. */
  ghost predicate Repainted(gm: Game, hues: seq<Hue>, g: Grid)
  {
    && Valid(gm.grid) && AllShaped(gm.roster) && |hues| == SquadSize
    && AllSound(Culled(gm.roster, gm.bounds, hues), gm.bounds)
    && var erased := ErasedPixels(Mark(gm.roster, gm.bounds, 0).0, gm.bounds);
       var drawn := FramePixels(Culled(gm.roster, gm.bounds, hues), gm.bounds);
       AllInBuffer(gm.grid, erased + drawn) && g == Paint(gm.grid, erased + drawn).(queue := [])
  }

  /** The removal pass's grid followed by the redraw over the culled roster is one frame's
      repainting. */
  lemma FrameRepainted(gm: Game, hues: seq<Hue>, roster: seq<Entity>, culled: Grid, g: Grid)
    requires Valid(gm.grid) && AllShaped(gm.roster) && |hues| == SquadSize
    requires roster == Culled(gm.roster, gm.bounds, hues) && AllSound(roster, gm.bounds)
    requires AllInBuffer(gm.grid, ErasedPixels(Mark(gm.roster, gm.bounds, 0).0, gm.bounds))
    requires culled == Paint(gm.grid, ErasedPixels(Mark(gm.roster, gm.bounds, 0).0, gm.bounds))
    requires AllPlaced(roster, gm.bounds) && AllMapsOk(roster) && AllInBuffer(culled, FramePixels(roster, gm.bounds))
    requires g == Paint(culled, FramePixels(roster, gm.bounds)).(queue := [])
    ensures Repainted(gm, hues, g)
  {
    SameShapeInBuffer(gm.grid, culled, FramePixels(roster, gm.bounds));
    PaintConcat(gm.grid, ErasedPixels(Mark(gm.roster, gm.bounds, 0).0, gm.bounds), FramePixels(roster, gm.bounds));
  }

  /** The number of bullets a shot fires: a quarter of the kill count plus one, or none when
      the kill count is negative. */
  function Volley(kills: int): (n: int)
    ensures kills >= 0 ==> n >= 1 && 4 * (n - 1) <= kills < 4 * n
    ensures kills < 0 ==> n == 0
  {
    if kills >= 0 then Quot(kills, 4) + 1 else 0
  }

  /** Bullet i of a shot fired from `at`: a Red projectile flying upwards, asked for one row
      above `at`, in column at.col + 1 + i - kills / 8. */
  function Bullet(b: Bounds, at: Point, kills: int, i: int): (r: Entity)
    ensures Shaped(r) && r.kind == ProjectileKind && r.shape == ProjectileShape && !r.flagged
    ensures r.velocity == BulletVelocity && r.current == Clamp(b, ProjectileShape, Point(at.row - 1, at.col + 1 + i - Quot(kills, 8)))
  {
    var location := Shift(at, -1, 1 + i - Quot(kills, 8), false).returned;
    SetColor(NewProjectile(b, location, BulletVelocity), Red)
  }

  /** Every bullet is a sound Red projectile flying upwards from the row above `at`, clamped
      onto the playfield, in its own column of a contiguous spread. */
  lemma BulletPlacement(b: Bounds, at: Point, kills: int, i: int)
    requires Fits(b, ProjectileShape)
    ensures Sound(Bullet(b, at, kills, i), b) && Bullet(b, at, kills, i).kind == ProjectileKind
    ensures Bullet(b, at, kills, i).velocity == BulletVelocity
    ensures Bullet(b, at, kills, i).colorMap == Some([[Red]])
    ensures Bullet(b, at, kills, i).current ==
      Point(ClampAxis(at.row - 1, b.maxRow), ClampAxis(at.col + 1 + i - Quot(kills, 8), b.maxCol))
  {
    assert |ProjectileShape[0]| == 1;
    var cm := Bullet(b, at, kills, i).colorMap.value;
    assert |cm| == 1 && |cm[0]| == 1 && cm[0][0] == Red;
    assert cm[0] == [Red];
    assert cm == [[Red]];
  }

  /** The player's index in a list holding a player. */
  function PlayerAt(rs: seq<Entity>): (i: nat)
    requires Count(rs, PlayerKind) > 0
    ensures i < |rs| && rs[i].kind == PlayerKind
  {
    IndexOf(rs, PlayerKind)
  }

  /** The bullets of one shot from `at`, in the order they end up in the list: each new
      bullet goes in front of the ones before it, so the last one fired comes first. */
  method Shots(b: Bounds, at: Point, kills: int) returns (shots: seq<Entity>)
    ensures |shots| == Volley(kills)
    ensures forall i :: 0 <= i < |shots| ==> shots[|shots| - 1 - i] == Bullet(b, at, kills, i)
  {
    shots := [];
    if kills >= 0 {
      var i := 0;
      while i < Quot(kills, 4) + 1
        invariant 0 <= i <= Volley(kills) && |shots| == i
        invariant forall j :: 0 <= j < i ==> shots[i - 1 - j] == Bullet(b, at, kills, j)
      {
        var bullet := NewProjectile(b, Shift(at, -1, 1 + i - Quot(kills, 8), false).returned, BulletVelocity);
        bullet := SetColor(bullet, Red);
        shots := [bullet] + shots;
        i := i + 1;
      }
    }
  }

  /** `Fire`: when the kill count is non-negative, inserts `Volley` bullets at the front of
      the list, one at a time, so that the last one fired comes first. */
  method Fire(gm: Game) returns (r: Game)
    requires Count(gm.roster, PlayerKind) > 0
    ensures r == gm.(roster := r.roster)
    ensures |r.roster| == |gm.roster| + Volley(gm.killCount)
    ensures r.roster[Volley(gm.killCount)..] == gm.roster
    ensures forall i :: 0 <= i < Volley(gm.killCount) ==>
      r.roster[Volley(gm.killCount) - 1 - i] == Bullet(gm.bounds, gm.roster[PlayerAt(gm.roster)].current, gm.killCount, i)
  {
    var at := gm.roster[PlayerAt(gm.roster)].current;
    var shots := Shots(gm.bounds, at, gm.killCount);
    r := gm.(roster := shots + gm.roster);
    assert r.roster[|shots|..] == gm.roster;
  }

  /** Firing keeps the game invariant and adds exactly `Volley` projectiles. */
  lemma FireKeeps(gm: Game, r: Game)
    requires Inv(gm) && r == gm.(roster := r.roster)
    requires |r.roster| == |gm.roster| + Volley(gm.killCount) && r.roster[Volley(gm.killCount)..] == gm.roster
    requires forall i :: 0 <= i < Volley(gm.killCount) ==>
      r.roster[Volley(gm.killCount) - 1 - i] == Bullet(gm.bounds, gm.roster[PlayerAt(gm.roster)].current, gm.killCount, i)
    ensures Inv(r)
    ensures Count(r.roster, ProjectileKind) == Count(gm.roster, ProjectileKind) + Volley(gm.killCount)
  {
    ShapesFit(gm.grid, gm.bounds);
    VolleySound(gm.bounds, gm.roster[PlayerAt(gm.roster)].current, gm.killCount, r.roster, Volley(gm.killCount));
    ShotsFirst(r.roster, gm.roster, Volley(gm.killCount), gm.bounds);
  }

  /** The first n entries of a list, the bullets of one shot listed last-fired first, are
      sound projectiles. */
  lemma VolleySound(b: Bounds, at: Point, kills: int, rs: seq<Entity>, n: nat)
    requires Fits(b, ProjectileShape) && n <= |rs|
    requires forall i :: 0 <= i < n ==> rs[n - 1 - i] == Bullet(b, at, kills, i)
    ensures forall j :: 0 <= j < n ==> Sound(rs[j], b) && rs[j].kind == ProjectileKind
  {
    forall j | 0 <= j < n ensures Sound(rs[j], b) && rs[j].kind == ProjectileKind {
      BulletPlacement(b, at, kills, n - 1 - j);
    }
  }

  /** Sound projectiles in front of a sound list: the whole list is sound, with one more
      projectile per shot and the same players. */
  lemma ShotsFirst(rs: seq<Entity>, base: seq<Entity>, n: nat, b: Bounds)
    requires n <= |rs| && rs[n..] == base && AllSound(base, b)
    requires forall j :: 0 <= j < n ==> Sound(rs[j], b) && rs[j].kind == ProjectileKind
    ensures AllSound(rs, b)
    ensures Count(rs, ProjectileKind) == Count(base, ProjectileKind) + n
    ensures Count(rs, PlayerKind) == Count(base, PlayerKind)
  {
    var shots := rs[..n];
    assert rs == shots + base;
    ShotKinds(shots);
    CountConcat(shots, base, PlayerKind);
    CountConcat(shots, base, ProjectileKind);
    SoundConcat(shots, base, b);
  }

  /** Soundness of a concatenation follows from soundness of its parts. */
  lemma SoundConcat(a: seq<Entity>, c: seq<Entity>, b: Bounds)
    requires AllSound(a, b) && AllSound(c, b)
    ensures AllSound(a + c, b)
  {
    forall i | 0 <= i < |a + c| ensures Sound((a + c)[i], b) {
      if i >= |a| {
        assert (a + c)[i] == c[i - |a|];
      }
    }
  }

  /** A list of projectiles counts each of them as a projectile and none as a player. */
  lemma {:induction false} ShotKinds(shots: seq<Entity>)
    requires forall i :: 0 <= i < |shots| ==> shots[i].kind == ProjectileKind
    ensures Count(shots, ProjectileKind) == |shots| && Count(shots, PlayerKind) == 0
  {
    if shots != [] {
      assert forall i :: 1 <= i < |shots| ==> shots[i] == shots[1..][i - 1];
      ShotKinds(shots[1..]);
    }
  }

  predicate IsArrow(key: Key)
  {
    key == LeftArrow || key == RightArrow || key == UpArrow || key == DownArrow
  }

  /** The velocity an arrow key gives the player: one column left or right, one row up or
      down. */
  function Direction(key: Key): (d: Point)
    requires IsArrow(key)
    ensures (d.row == 0) != (d.col == 0) && -1 <= d.row <= 1 && -1 <= d.col <= 1
    ensures d.row < 0 <==> key == UpArrow
    ensures d.row > 0 <==> key == DownArrow
    ensures d.col < 0 <==> key == LeftArrow
    ensures d.col > 0 <==> key == RightArrow
  {
    match key
    case LeftArrow => Point(0, -1)
    case RightArrow => Point(0, 1)
    case UpArrow => Point(-1, 0)
    case DownArrow => Point(1, 0)
  }

  /** `KeyAction`: Escape stops the loop, an arrow steers the player, the space bar fires,
      C clears and redraws the whole grid, and any other key does nothing. Only Clear writes
      to the terminal; every branch keeps the game invariant. */
  method KeyAction(gm: Game, key: Key) returns (r: Game, out: seq<Write>)
    requires Inv(gm)
    ensures Inv(r)
    ensures key != CKey ==> out == []
    ensures key == Escape ==> r == gm.(running := false)
    ensures IsArrow(key) ==>
      var p := PlayerAt(gm.roster);
      r == gm.(roster := gm.roster[p := Move(gm.roster[p], Direction(key))])
    ensures key == Spacebar ==>
      && r == gm.(roster := r.roster)
      && |r.roster| == |gm.roster| + Volley(gm.killCount)
      && r.roster[Volley(gm.killCount)..] == gm.roster
      && Count(r.roster, ProjectileKind) == Count(gm.roster, ProjectileKind) + Volley(gm.killCount)
      && forall i :: 0 <= i < Volley(gm.killCount) ==>
           r.roster[Volley(gm.killCount) - 1 - i] ==
             Bullet(gm.bounds, gm.roster[PlayerAt(gm.roster)].current, gm.killCount, i)
    ensures key == CKey ==>
      && r == gm.(grid := r.grid)
      && SameShape(gm.grid, r.grid) && Pristine(r.grid) && r.grid.queue == []
      && |out| == |gm.grid.queue| + gm.grid.height * gm.grid.width
      && forall k :: 0 <= k < |out| ==>
           && InBuffer(r.grid, (gm.grid.queue + RowMajor(gm.grid.height, gm.grid.width))[k])
           && out[k] == Emitted(r.grid, (gm.grid.queue + RowMajor(gm.grid.height, gm.grid.width))[k])
    ensures key == Other ==> r == gm
  {
    out := [];
    match key
    case Escape =>
      r := gm.(running := false);
    case Spacebar =>
      r := Fire(gm);
      FireKeeps(gm, r);
    case CKey =>
      var g;
      g, out := Clear(gm.grid);
      r := gm.(grid := g);
    case Other =>
      r := gm;
    case _ =>
      var p := PlayerAt(gm.roster);
      var rs := gm.roster[p := Move(gm.roster[p], Direction(key))];
      r := gm.(roster := rs);
      SteerKeeps(gm.roster, p, Direction(key), gm.bounds);
  }

  /** Giving the player a velocity keeps every entity sound and the kinds unchanged. */
  lemma SteerKeeps(rs: seq<Entity>, p: nat, d: Point, b: Bounds)
    requires p < |rs| && AllSound(rs, b)
    ensures AllSound(rs[p := Move(rs[p], d)], b)
    ensures Count(rs[p := Move(rs[p], d)], PlayerKind) == Count(rs, PlayerKind)
  {
    var t := rs[p := Move(rs[p], d)];
    assert SameKinds(rs, t);
    CountSameKinds(rs, t, PlayerKind);
  }

  /** A new player is sound, and on its own it counts once as a player and as nothing else. */
  lemma PlayerReady(b: Bounds)
    requires Fits(b, PlayerShape)
    ensures AllSound([NewPlayer(b, PlayerHitPoint)], b)
    ensures Count([NewPlayer(b, PlayerHitPoint)], PlayerKind) == 1
    ensures Count([NewPlayer(b, PlayerHitPoint)], EnemyKind) == 0
    ensures Count([NewPlayer(b, PlayerHitPoint)], ProjectileKind) == 0
  {
    var player := NewPlayer(b, PlayerHitPoint);
    PlayerStart(b, PlayerHitPoint);
    assert [player][1..] == [];
  }

  /** Everything on the opening roster is at rest. */
  lemma OpeningAtRest(b: Bounds, hues: seq<Hue>, rs: seq<Entity>)
    requires |hues| == SquadSize
    requires |rs| == 1 + SquadSize && rs[..1] == [NewPlayer(b, PlayerHitPoint)]
    requires forall i :: 0 <= i < SquadSize ==> rs[1 + i] == Recruit(b, hues, i)
    ensures forall i :: 0 <= i < |rs| ==> rs[i].velocity == Point(0, 0)
  {
    forall i | 0 <= i < |rs| ensures rs[i].velocity == Point(0, 0) {
      if i == 0 {
        assert rs[0] == rs[..1][0];
      } else {
        assert rs[1 + (i - 1)] == Recruit(b, hues, i - 1);
      }
    }
  }

  /** An entity at rest stays where it is for one frame. */
  lemma AtRest(e: Entity, b: Bounds)
    requires Placed(e, b) && e.velocity == Point(0, 0)
    ensures NextFrame(e, b).current == e.current
  {
    assert Add(e.current, e.velocity) == e.current;
  }

  /** The roster the constructor leaves: the player, then the wave, each one frame on and
      still where it was spawned, the enemies in their drawn colours; one player, a full
      wave of enemies and no projectile. */
  ghost predicate OpeningRoster(t: seq<Entity>, b: Bounds, hues: seq<Hue>)
    requires |hues| == SquadSize
  {
    && |t| == 1 + SquadSize
    && Count(t, PlayerKind) == 1 && Count(t, EnemyKind) == SquadSize && Count(t, ProjectileKind) == 0
    && t[0] == Stepped(NewPlayer(b, PlayerHitPoint), b)
    && t[0].kind == PlayerKind && t[0].current == NewPlayer(b, PlayerHitPoint).current
    && forall i :: 0 <= i < SquadSize ==>
         && t[1 + i] == Stepped(Recruit(b, hues, i), b)
         && t[1 + i].kind == EnemyKind
         && t[1 + i].current == Recruit(b, hues, i).current
         && t[1 + i].colorMap == Recruit(b, hues, i).colorMap
  }

  /** The first frame of the mustered roster is the opening roster. */
  lemma OpeningFrame(rs: seq<Entity>, t: seq<Entity>, b: Bounds, hues: seq<Hue>)
    requires Fits(b, EnemyShape) && |hues| == SquadSize && AllSound(rs, b)
    requires |rs| == 1 + SquadSize && rs[..1] == [NewPlayer(b, PlayerHitPoint)]
    requires forall i :: 0 <= i < SquadSize ==> rs[1 + i] == Recruit(b, hues, i)
    requires Count(rs, PlayerKind) == 1 && Count(rs, EnemyKind) == SquadSize && Count(rs, ProjectileKind) == 0
    requires |t| == |rs| && forall i :: 0 <= i < |rs| ==> t[i] == Stepped(rs[i], b)
    ensures OpeningRoster(t, b, hues)
  {
    FirstFrameSteps(rs, t, b, hues);
    FirstFrame(rs, t, b, hues);
    CountSameKinds(rs, t, PlayerKind);
    CountSameKinds(rs, t, EnemyKind);
    CountSameKinds(rs, t, ProjectileKind);
  }

  /** The opening roster's first frame is the player and each recruit one frame on, in
      place, so the kinds stay in order. */
  lemma FirstFrameSteps(rs: seq<Entity>, t: seq<Entity>, b: Bounds, hues: seq<Hue>)
    requires |hues| == SquadSize && AllSound(rs, b)
    requires |rs| == 1 + SquadSize && rs[..1] == [NewPlayer(b, PlayerHitPoint)]
    requires forall i :: 0 <= i < SquadSize ==> rs[1 + i] == Recruit(b, hues, i)
    requires |t| == |rs| && forall i :: 0 <= i < |rs| ==> t[i] == Stepped(rs[i], b)
    ensures t[0] == Stepped(NewPlayer(b, PlayerHitPoint), b) && t[0].kind == PlayerKind
    ensures forall i :: 0 <= i < SquadSize ==> t[1 + i] == Stepped(Recruit(b, hues, i), b) && t[1 + i].kind == EnemyKind
    ensures SameKinds(rs, t)
  {
    assert rs[0] == rs[..1][0];
    forall i | 0 <= i < SquadSize ensures t[1 + i] == Stepped(Recruit(b, hues, i), b) {
      assert rs[1 + i] == Recruit(b, hues, i);
    }
  }

  /** The opening roster's first frame leaves every entity where it stood, and the enemies'
      colours as drawn. */
  lemma FirstFrame(rs: seq<Entity>, t: seq<Entity>, b: Bounds, hues: seq<Hue>)
    requires Fits(b, EnemyShape) && |hues| == SquadSize && AllSound(rs, b)
    requires |rs| == 1 + SquadSize && rs[..1] == [NewPlayer(b, PlayerHitPoint)]
    requires forall i :: 0 <= i < SquadSize ==> rs[1 + i] == Recruit(b, hues, i)
    requires |t| == |rs| && forall i :: 0 <= i < |rs| ==> t[i] == Stepped(rs[i], b)
    ensures t[0].current == NewPlayer(b, PlayerHitPoint).current
    ensures forall i :: 0 <= i < SquadSize ==>
      t[1 + i].current == Recruit(b, hues, i).current && t[1 + i].colorMap == Recruit(b, hues, i).colorMap
  {
    OpeningAtRest(b, hues, rs);
    forall i | 0 <= i < |rs| ensures t[i].current == rs[i].current {
      AtRest(rs[i], b);
    }
    assert rs[0] == rs[..1][0];
  }

  /** The constructor: a grid of `rows` by `cols` (the grid's own range errors are passed
      on, rows first), the player at the bottom centre, one wave of enemies coloured from
      `spawnHues`, one frame drawn (a second wave's colours, `hues`, are never needed since
      the first wave is still alive), and the refresh rate set last. The game is not running
      yet. The first frame repaints the whole buffer in row-major order before anything else. */
  method NewGame(rows: int, cols: int, framesPerSecond: int, spawnHues: seq<Hue>, hues: seq<Hue>)
    returns (r: Result<(Game, seq<Write>), GridError>)
    requires |spawnHues| == SquadSize && |hues| == SquadSize
    ensures r.Failure? <==> !(MinRows <= rows <= MaxRows && MinCols <= cols <= MaxCols)
    ensures (rows < MinRows || rows > MaxRows) ==> r == Failure(RowsOutOfRange)
    ensures MinRows <= rows <= MaxRows && (cols < MinCols || cols > MaxCols) ==> r == Failure(ColsOutOfRange)
    ensures r.Success? ==>
      var gm := r.value.0;
      && Inv(gm) && gm.bounds == Bounds(rows - 1, cols - 1)
      && gm.grid.rows == rows && gm.grid.cols == cols && gm.grid.queue == []
      && gm.killCount == 0 && !gm.running && gm.framesPerSecond == framesPerSecond
    ensures r.Success? ==>
      var gm := r.value.0;
      && OpeningRoster(gm.roster, gm.bounds, spawnHues)
    ensures r.Success? ==>
      var out := r.value.1;
      && |out| >= (rows + 3) * (cols + 3)
      && forall k :: 0 <= k < (rows + 3) * (cols + 3) ==>
           Point(out[k].row, out[k].col) == RowMajor(rows + 3, cols + 3)[k]
  {
    var made := NewGrid(rows, cols);
    if made.Failure? {
      return Failure(made.error);
    }
    var gm, out := Launch(made.value, framesPerSecond, spawnHues, hues);
    r := Success((gm, out));
  }

  /** The constructor's roster before its first frame: the player, then one wave. */
  method Muster(g: Grid, b: Bounds, hues: seq<Hue>) returns (rs: seq<Entity>)
    requires Valid(g) && Covers(g, b) && |hues| == SquadSize
    ensures |rs| == 1 + SquadSize && rs[..1] == [NewPlayer(b, PlayerHitPoint)]
    ensures forall i :: 0 <= i < SquadSize ==> rs[1 + i] == Recruit(b, hues, i)
    ensures AllSound(rs, b)
    ensures Count(rs, PlayerKind) == 1 && Count(rs, EnemyKind) == SquadSize && Count(rs, ProjectileKind) == 0
  {
    ShapesFit(g, b);
    PlayerReady(b);
    rs := SpawnEnemies([NewPlayer(b, PlayerHitPoint)], b, hues);
    WaveCounts([NewPlayer(b, PlayerHitPoint)], rs, b, hues);
  }

  /** The constructor from a grid on: the player and a wave on the roster, one frame, and
      the refresh rate set. */
  method Launch(g: Grid, framesPerSecond: int, spawnHues: seq<Hue>, hues: seq<Hue>) returns (gm: Game, out: seq<Write>)
    requires Valid(g) && |spawnHues| == SquadSize && |hues| == SquadSize
    ensures Inv(gm) && gm.bounds == Bounds(g.rows - 1, g.cols - 1)
    ensures SameShape(g, gm.grid) && gm.grid.queue == []
    ensures gm.killCount == 0 && !gm.running && gm.framesPerSecond == framesPerSecond
    ensures OpeningRoster(gm.roster, gm.bounds, spawnHues)
    ensures |out| >= |g.queue| && forall k :: 0 <= k < |g.queue| ==> Point(out[k].row, out[k].col) == g.queue[k]
  {
    var b := Bounds(g.rows - 1, g.cols - 1);
    var roster, first;
    roster, first, out := Opening(g, spawnHues, hues);
    ShapesFit(g, b);
    OpeningFrame(roster, first.roster, b, spawnHues);
    gm := first.(framesPerSecond := framesPerSecond);
  }

  /** The opening roster and the game after its first frame, with the refresh rate still 0:
      every entity is stepped once, since nothing is hit and an enemy is left. */
  method Opening(g: Grid, spawnHues: seq<Hue>, hues: seq<Hue>) returns (rs: seq<Entity>, first: Game, out: seq<Write>)
    requires Valid(g) && |spawnHues| == SquadSize && |hues| == SquadSize
    ensures var b := Bounds(g.rows - 1, g.cols - 1);
      && |rs| == 1 + SquadSize && rs[..1] == [NewPlayer(b, PlayerHitPoint)]
      && (forall i :: 0 <= i < SquadSize ==> rs[1 + i] == Recruit(b, spawnHues, i))
      && AllSound(rs, b) && Count(rs, PlayerKind) == 1 && Count(rs, EnemyKind) == SquadSize && Count(rs, ProjectileKind) == 0
    ensures Inv(first) && first.bounds == Bounds(g.rows - 1, g.cols - 1) && Covers(g, first.bounds)
    ensures SameShape(g, first.grid) && first.grid.queue == []
    ensures first.killCount == 0 && !first.running
    ensures |first.roster| == |rs| && forall i :: 0 <= i < |rs| ==> first.roster[i] == Stepped(rs[i], first.bounds)
    ensures |out| >= |g.queue| && forall k :: 0 <= k < |g.queue| ==> Point(out[k].row, out[k].col) == g.queue[k]
  {
    var b := Bounds(g.rows - 1, g.cols - 1);
    rs := Muster(g, b, spawnHues);
    var start := Game(g, b, rs, 0, false, 0);
    first, out := Update(start, hues);
    assert Count(start.roster, ProjectileKind) == 0 && Count(start.roster, EnemyKind) > 0;
  }
}

=== FILE: grid.dfy ===
/** The bordered character grid with dirty-cell tracking (Display/Grid.cs).

    The grid keeps a character buffer and a parallel colour buffer, both a fixed margin and a
    one-cell border larger than the playfield, and a FIFO queue of buffer cells changed since
    the last render. Terminal output is modelled as the sequence of writes `Render` emits. */
module Grids {
  import opened Points
  import opened Results

  /** A console colour: the sixteen values of the console palette, numbered as the runtime
      numbers them. */
  type Color = c: int | 0 <= c < 16

  const Black: Color := 0
  const Red: Color := 12
  const White: Color := 15
  const DefaultColor: Color := White

  const TopMargin: int := 1
  const BottomMargin: int := 0
  const LeftMargin: int := 1
  const RightMargin: int := 0
  const Border: int := 1

  /** The accepted range of playfield sizes. */
  const MinRows: int := 8
  const MaxRows: int := 32
  const MinCols: int := 16
  const MaxCols: int := 64

  datatype GridError = RowsOutOfRange | ColsOutOfRange

  /** `height` and `width` are the buffer dimensions; `queue` is the render queue of buffer
      coordinates, oldest first. */
  datatype Grid = Grid(rows: int, cols: int, height: int, width: int,
                       chars: seq<seq<char>>, colors: seq<seq<Color>>, queue: seq<Point>)

  /** One terminal write: put `ch` in colour `color` at buffer cell (row, col). */
  datatype Write = Write(row: int, col: int, ch: char, color: Color)

  /** The parts of the border, and `Off` for every cell that is not on it. */
  datatype Part = TopLeft | TopRight | BottomLeft | BottomRight | Side | Rule | Off

  /** The glyph each border part is drawn with; cells off the border are blank. */
  function Glyph(part: Part): char
  {
    match part
    case TopLeft => '╔'
    case TopRight => '╗'
    case BottomLeft => '╚'
    case BottomRight => '╝'
    case Side => '║'
    case Rule => '═'
    case Off => ' '
  }

  /** Which part of the border of a rows x cols playfield buffer cell (i, j) belongs to. */
  function BorderPart(rows: int, cols: int, i: int, j: int): Part
  {
    var top, bottom := TopMargin, TopMargin + Border + rows;
    var left, right := LeftMargin, LeftMargin + Border + cols;
    if i == top && j == left then TopLeft
    else if i == top && j == right then TopRight
    else if i == bottom && j == left then BottomLeft
    else if i == bottom && j == right then BottomRight
    else if (j == left || j == right) && top < i < bottom then Side
    else if (i == top || i == bottom) && left < j < right then Rule
    else Off
  }

  /** The border occupies the corners (1, 1), (1, cols + 2), (rows + 2, 1) and
      (rows + 2, cols + 2), the two side columns between them and the two rules between them. */
  lemma BorderLayout(rows: int, cols: int, i: int, j: int)
    requires rows >= 1 && cols >= 1
    ensures BorderPart(rows, cols, 1, 1) == TopLeft
    ensures BorderPart(rows, cols, 1, cols + 2) == TopRight
    ensures BorderPart(rows, cols, rows + 2, 1) == BottomLeft
    ensures BorderPart(rows, cols, rows + 2, cols + 2) == BottomRight
    ensures 2 <= i <= rows + 1 && (j == 1 || j == cols + 2) ==> BorderPart(rows, cols, i, j) == Side
    ensures 2 <= j <= cols + 1 && (i == 1 || i == rows + 2) ==> BorderPart(rows, cols, i, j) == Rule
    ensures 2 <= i <= rows + 1 && 2 <= j <= cols + 1 ==> BorderPart(rows, cols, i, j) == Off
    ensures (i < 1 || j < 1) ==> BorderPart(rows, cols, i, j) == Off
  {
  }

  /** Buffer dimensions: the playfield plus margins plus a border on each side. */
  function BufferSize(rows: int, cols: int): (r: (int, int))
    ensures r.0 == rows + 3 && r.1 == cols + 3
  {
    (TopMargin + BottomMargin + 2 * Border + rows, LeftMargin + RightMargin + 2 * Border + cols)
  }

  /** Row offset from a playfield row to its buffer row; the same for every row. */
  function CellRowOffset(row: int): (r: int)
    ensures r == 2
  {
    TopMargin + Border
  }

  /** Column offset from a playfield column to its buffer column; the same for every column. */
  function CellColOffset(col: int): (r: int)
    ensures r == 2
  {
    LeftMargin + Border
  }

  /** The buffer cell that playfield cell (row, col) is drawn into. */
  function Target(row: int, col: int): (p: Point)
    ensures p == Point(row + 2, col + 2)
  {
    Point(row + CellRowOffset(row), col + CellColOffset(col))
  }

  ghost predicate Rect<T>(m: seq<seq<T>>, h: int, w: int)
  {
    |m| == h && forall i :: 0 <= i < |m| ==> |m[i]| == w
  }

  predicate InBuffer(g: Grid, p: Point)
  {
    0 <= p.row < g.height && 0 <= p.col < g.width
  }

  /** Sizes fixed at construction: the range-checked playfield and the buffer around it. */
  ghost predicate Sized(g: Grid)
  {
    && MinRows <= g.rows <= MaxRows
    && MinCols <= g.cols <= MaxCols
    && (g.height, g.width) == BufferSize(g.rows, g.cols)
  }

  ghost predicate QueueInBuffer(g: Grid)
  {
    forall k :: 0 <= k < |g.queue| ==> InBuffer(g, g.queue[k])
  }

  ghost predicate Valid(g: Grid)
  {
    && Sized(g)
    && Rect(g.chars, g.height, g.width)
    && Rect(g.colors, g.height, g.width)
    && QueueInBuffer(g)
  }

  /** No operation ever resizes the grid. */
  ghost predicate SameShape(g: Grid, r: Grid)
  {
    r.rows == g.rows && r.cols == g.cols && r.height == g.height && r.width == g.width
  }

  /** A freshly initialised grid: the border glyphs on the border, blanks elsewhere, all White. */
  ghost predicate Pristine(g: Grid)
    requires Valid(g)
  {
    forall i, j :: 0 <= i < g.height && 0 <= j < g.width ==>
      g.chars[i][j] == Glyph(BorderPart(g.rows, g.cols, i, j)) && g.colors[i][j] == White
  }

  /** Cell (i, j) of the buffer holds character c in colour `color`. */
  ghost predicate Shows(g: Grid, i: int, j: int, c: char, color: Color)
  {
    && 0 <= i < |g.chars| && 0 <= j < |g.chars[i]| && g.chars[i][j] == c
    && 0 <= i < |g.colors| && 0 <= j < |g.colors[i]| && g.colors[i][j] == color
  }

  /** The write the terminal receives for buffer cell p when it is drained. */
  function Emitted(g: Grid, p: Point): Write
    requires Valid(g) && InBuffer(g, p)
  {
    Write(p.row, p.col, g.chars[p.row][p.col], g.colors[p.row][p.col])
  }

  /** A copy of m with the one entry (i, j) replaced by v. */
  function Put<T>(m: seq<seq<T>>, i: int, j: int, v: T): (r: seq<seq<T>>)
    requires 0 <= i < |m| && 0 <= j < |m[i]|
    ensures |r| == |m| && forall a :: 0 <= a < |m| ==> |r[a]| == |m[a]|
    ensures forall a, b :: 0 <= a < |m| && 0 <= b < |m[a]| ==>
      r[a][b] == if a == i && b == j then v else m[a][b]
  {
    m[i := m[i][j := v]]
  }

  /** Writes one playfield cell. A write that changes neither the character nor the colour is
      dropped; any other write updates exactly that buffer cell and queues it for rendering. */
  function FillPixel(g: Grid, c: char, color: Color, row: int, col: int): (r: Grid)
    requires Valid(g) && InBuffer(g, Target(row, col))
    ensures Valid(r) && SameShape(g, r)
    ensures r.chars[row + 2][col + 2] == c && r.colors[row + 2][col + 2] == color
    ensures forall i, j :: 0 <= i < r.height && 0 <= j < r.width && (i != row + 2 || j != col + 2) ==>
      r.chars[i][j] == g.chars[i][j] && r.colors[i][j] == g.colors[i][j]
    ensures g.chars[row + 2][col + 2] == c && g.colors[row + 2][col + 2] == color ==> r == g
    ensures !(g.chars[row + 2][col + 2] == c && g.colors[row + 2][col + 2] == color) ==>
      r.queue == g.queue + [Point(row + 2, col + 2)]
  {
    var t := Target(row, col);
    if g.chars[t.row][t.col] == c && g.colors[t.row][t.col] == color then g
    else
      g.(chars := Put(g.chars, t.row, t.col, c),
         colors := Put(g.colors, t.row, t.col, color),
         queue := g.queue + [t])
  }

  /** Drains the render queue in FIFO order, one write per queued cell, reading the buffers
      as they stand. The buffers are untouched and the queue ends empty, so a second render
      writes nothing. */
  method Render(g: Grid) returns (r: Grid, out: seq<Write>)
    requires Valid(g)
    ensures r == g.(queue := [])
    ensures Valid(r)
    ensures |out| == |g.queue|
    ensures forall k :: 0 <= k < |out| ==> out[k] == Emitted(g, g.queue[k])
    ensures forall k :: 0 <= k < |out| ==>
      Point(out[k].row, out[k].col) == g.queue[k] && out[k] == Emitted(r, g.queue[k])
  {
    var pending := g.queue;
    out := [];
    while |pending| > 0
      invariant |out| + |pending| == |g.queue|
      invariant pending == g.queue[|out|..]
      invariant forall k :: 0 <= k < |out| ==> out[k] == Emitted(g, g.queue[k])
    {
      var pixel := pending[0];
      pending := pending[1..];
      var row, col := pixel.row, pixel.col;
      out := out + [Write(row, col, g.chars[row][col], g.colors[row][col])];
    }
    r := g.(queue := pending);
  }

  /** The cells of row i from column 0 up to (not including) column n. */
  function RowOf(i: int, n: nat): (r: seq<Point>)
    ensures |r| == n
    ensures forall j :: 0 <= j < n ==> r[j] == Point(i, j)
  {
    seq(n, j => Point(i, j))
  }

  /** Every cell of an h x w buffer, row by row. */
  function RowMajor(h: nat, w: nat): (r: seq<Point>)
    ensures |r| == h * w
    ensures forall k :: 0 <= k < |r| ==> 0 <= r[k].row < h && 0 <= r[k].col < w
  {
    if h == 0 then [] else RowMajor(h - 1, w) + RowOf(h - 1, w)
  }

  lemma {:induction false} MulAtLeast(a: int, w: int)
    requires a >= 1 && w >= 0
    ensures a * w >= w
  {
    if a > 1 {
      MulAtLeast(a - 1, w);
      assert a * w == (a - 1) * w + w;
    }
  }

  /** Euclidean division recovers quotient and remainder of q * w + j. */
  lemma DivModOf(q: int, j: int, w: int)
    requires w > 0 && 0 <= j < w
    ensures (q * w + j) / w == q && (q * w + j) % w == j
  {
    var k := q * w + j;
    var d, m := k / w, k % w;
    assert k == d * w + m;
    assert (d - q) * w == d * w - q * w;
    assert (d - q) * w == j - m;
    if d > q {
      MulAtLeast(d - q, w);
    } else if d < q {
      MulAtLeast(q - d, w);
    }
  }

  /** Position k of the row-major enumeration is cell (k / w, k % w). */
  lemma {:induction false} RowMajorIndex(h: nat, w: nat, k: int)
    requires 0 <= k < h * w
    ensures RowMajor(h, w)[k] == Point(k / w, k % w)
  {
    assert h > 0;
    if k < (h - 1) * w {
      RowMajorIndex(h - 1, w, k);
    } else {
      assert w > 0;
      var j := k - (h - 1) * w;
      assert RowMajor(h, w)[k] == RowOf(h - 1, w)[j];
      DivModOf(h - 1, j, w);
    }
  }

  /** Fills both buffers with blank White cells and queues every cell, row by row, after
      whatever was already queued. */
  method InitializeBuffer(g: Grid) returns (r: Grid)
    requires Sized(g) && QueueInBuffer(g)
    ensures Valid(r) && SameShape(g, r)
    ensures r.queue == g.queue + RowMajor(g.height, g.width)
    ensures forall i, j :: 0 <= i < r.height && 0 <= j < r.width ==>
      r.chars[i][j] == ' ' && r.colors[i][j] == DefaultColor
  {
    var chars: seq<seq<char>> := [];
    var queue := g.queue;
    var i := 0;
    while i < g.height
      invariant 0 <= i <= g.height
      invariant Rect(chars, i, g.width)
      invariant forall a, b :: 0 <= a < i && 0 <= b < g.width ==> chars[a][b] == ' '
      invariant queue == g.queue + RowMajor(i, g.width)
    {
      var line: seq<char> := [];
      var j := 0;
      while j < g.width
        invariant 0 <= j <= g.width
        invariant |line| == j
        invariant forall b :: 0 <= b < j ==> line[b] == ' '
        invariant queue == g.queue + RowMajor(i, g.width) + RowOf(i, j)
      {
        line := line + [' '];
        queue := queue + [Point(i, j)];
        assert RowOf(i, j + 1) == RowOf(i, j) + [Point(i, j)];
        j := j + 1;
      }
      chars := chars + [line];
      i := i + 1;
    }
    var colors: seq<seq<Color>> := [];
    i := 0;
    while i < g.height
      invariant 0 <= i <= g.height
      invariant Rect(colors, i, g.width)
      invariant forall a, b :: 0 <= a < i && 0 <= b < g.width ==> colors[a][b] == DefaultColor
    {
      var line: seq<Color> := [];
      var j := 0;
      while j < g.width
        invariant 0 <= j <= g.width
        invariant |line| == j
        invariant forall b :: 0 <= b < j ==> line[b] == DefaultColor
      {
        line := line + [DefaultColor];
        j := j + 1;
      }
      colors := colors + [line];
      i := i + 1;
    }
    r := g.(chars := chars, colors := colors, queue := queue);
  }

  /** Paints the border of a rows x cols playfield into one buffer: the four corners, then the
      two side columns, then the top and bottom rules; every other entry is kept. */
  method Frame<T>(m: seq<seq<T>>, rows: int, cols: int, paint: Part -> T) returns (r: seq<seq<T>>)
    requires rows >= 1 && cols >= 1
    requires Rect(m, rows + 3, cols + 3)
    ensures Rect(r, rows + 3, cols + 3)
    ensures forall i, j :: 0 <= i < rows + 3 && 0 <= j < cols + 3 ==>
      r[i][j] == if BorderPart(rows, cols, i, j) == Off then m[i][j] else paint(BorderPart(rows, cols, i, j))
  {
    var top, bottom := TopMargin, TopMargin + Border + rows;
    var left, right := LeftMargin, LeftMargin + Border + cols;
    r := Put(m, top, left, paint(TopLeft));
    r := Put(r, top, right, paint(TopRight));
    r := Put(r, bottom, left, paint(BottomLeft));
    r := Put(r, bottom, right, paint(BottomRight));
    ghost var corners := r;
    var i := TopMargin + Border;
    while i <= TopMargin + Border * rows
      invariant top < i <= bottom
      invariant Rect(r, rows + 3, cols + 3)
      invariant forall a, b :: 0 <= a < rows + 3 && 0 <= b < cols + 3 ==>
        r[a][b] == if (b == left || b == right) && top < a < i then paint(Side) else corners[a][b]
    {
      r := Put(r, i, left, paint(Side));
      r := Put(r, i, right, paint(Side));
      i := i + 1;
    }
    ghost var sides := r;
    var j := LeftMargin + Border;
    while j <= LeftMargin + Border * cols
      invariant left < j <= right
      invariant Rect(r, rows + 3, cols + 3)
      invariant forall a, b :: 0 <= a < rows + 3 && 0 <= b < cols + 3 ==>
        r[a][b] == if (a == top || a == bottom) && left < b < j then paint(Rule) else sides[a][b]
    {
      r := Put(r, top, j, paint(Rule));
      r := Put(r, bottom, j, paint(Rule));
      j := j + 1;
    }
  }

  /** Draws the border glyphs in White; nothing off the border and nothing in the queue
      changes. */
  method DrawBorder(g: Grid) returns (r: Grid)
    requires Valid(g)
    ensures Valid(r) && SameShape(g, r) && r.queue == g.queue
    ensures forall i, j :: 0 <= i < r.height && 0 <= j < r.width && BorderPart(g.rows, g.cols, i, j) != Off ==>
      r.chars[i][j] == Glyph(BorderPart(g.rows, g.cols, i, j)) && r.colors[i][j] == White
    ensures forall i, j :: 0 <= i < r.height && 0 <= j < r.width && BorderPart(g.rows, g.cols, i, j) == Off ==>
      r.chars[i][j] == g.chars[i][j] && r.colors[i][j] == g.colors[i][j]
  {
    var chars := Frame(g.chars, g.rows, g.cols, Glyph);
    var colors := Frame(g.colors, g.rows, g.cols, (p: Part) => DefaultColor);
    r := g.(chars := chars, colors := colors);
  }

  /** Blanks the buffers, redraws the border and renders at once: every pending write is
      flushed, then every cell is repainted in row-major order with its pristine contents. */
  method Clear(g: Grid) returns (r: Grid, out: seq<Write>)
    requires Valid(g)
    ensures Valid(r) && SameShape(g, r) && Pristine(r)
    ensures r.queue == []
    ensures |out| == |g.queue| + g.height * g.width
    ensures forall k :: 0 <= k < |out| ==> InBuffer(r, (g.queue + RowMajor(g.height, g.width))[k])
    ensures forall k :: 0 <= k < |out| ==> out[k] == Emitted(r, (g.queue + RowMajor(g.height, g.width))[k])
  {
    var blank := InitializeBuffer(g);
    var bordered := DrawBorder(blank);
    r, out := Render(bordered);
  }

  /** The constructor: range checks (rows first), then buffer sizing, a blank buffer with
      every cell queued, and the border. */
  method NewGrid(rows: int, cols: int) returns (r: Result<Grid, GridError>)
    ensures r.Failure? <==> !(MinRows <= rows <= MaxRows && MinCols <= cols <= MaxCols)
    ensures (rows < MinRows || rows > MaxRows) ==> r == Failure(RowsOutOfRange)
    ensures MinRows <= rows <= MaxRows && (cols < MinCols || cols > MaxCols) ==> r == Failure(ColsOutOfRange)
    ensures r.Success? ==> Valid(r.value) && Pristine(r.value)
    ensures r.Success? ==> r.value.rows == rows && r.value.cols == cols
    ensures r.Success? ==> r.value.height == rows + 3 && r.value.width == cols + 3
    ensures r.Success? ==> r.value.queue == RowMajor(rows + 3, cols + 3)
  {
    if rows < MinRows || rows > MaxRows {
      return Failure(RowsOutOfRange);
    }
    if cols < MinCols || cols > MaxCols {
      return Failure(ColsOutOfRange);
    }
    var size := BufferSize(rows, cols);
    var g := Grid(rows, cols, size.0, size.1, [], [], []);
    g := InitializeBuffer(g);
    g := DrawBorder(g);
    return Success(g);
  }
}

=== FILE: ints.dfy ===
/** The game's integer division: C# `/` on `int` rounds the quotient toward zero, whereas
    Dafny's `/` is Euclidean. The two differ only for a negative dividend. */
module Ints {

  function Quot(a: int, d: int): (q: int)
    requires d > 0
    ensures a >= 0 ==> 0 <= a - d * q < d
    ensures a < 0 ==> -d < a - d * q <= 0
  {
    if a >= 0 then a / d else -((-a) / d)
  }

  /** On a non-negative dividend truncation and Euclidean division agree. */
  lemma QuotNonNegative(a: int, d: int)
    requires a >= 0 && d > 0
    ensures Quot(a, d) == a / d
  {
  }
}

=== FILE: player.dfy ===
/** The player (Player.cs): a five-hit-point creature that starts at the bottom of the
    playfield, centred, and moves only when steered. */
module Players {
  import opened Points
  import opened Results
  import opened Ints
  import opened Entities
  import opened Creatures

  const PlayerHitPoint: int := 5

  const PlayerShape: seq<seq<char>> := [
    [' ', '▐', '▌', ' '],
    [' ', '█', '█', ' '],
    [' ', '▐', '▌', ' '],
    ['▐', '█', '█', '▌']
  ]

  /** The constructor: asks for location (maxRow, maxCol / 2), which the setter clamps. */
  function NewPlayer(b: Bounds, hp: int): (e: Entity)
    ensures Shaped(e) && e.kind == PlayerKind && e.hitPoint == Some(hp) && e.shape == PlayerShape
    ensures e.velocity == Point(0, 0) && e.previous == Point(0, 0) && !e.flagged && e.colorMap.None?
    ensures e.current == Clamp(b, PlayerShape, Point(b.maxRow, Quot(b.maxCol, 2)))
  {
    SetLocation(NewCreature(PlayerKind, hp, PlayerShape, Point(0, 0)), b, Point(b.maxRow, Quot(b.maxCol, 2)))
  }

  /** On a playfield that fits the shape, the player starts with its bottom row on the last
      playfield row, horizontally centred once the playfield is at least seven columns wide,
      and placed. */
  lemma PlayerStart(b: Bounds, hp: int)
    requires Fits(b, PlayerShape)
    ensures NewPlayer(b, hp).current.row + |PlayerShape| - 1 == b.maxRow
    ensures b.maxCol >= 6 ==> NewPlayer(b, hp).current.col == b.maxCol / 2
    ensures Placed(NewPlayer(b, hp), b)
  {
    assert Width(PlayerShape) == 4 by {
      assert |PlayerShape[0]| == 4;
    }
  }

  /** `Move`: the displacement becomes the velocity; nothing else changes. */
  function Move(e: Entity, d: Point): (r: Entity)
    ensures r.velocity == d && r == e.(velocity := r.velocity)
  {
    e.(velocity := d)
  }

  /** A move is applied once: the next frame shifts the player by the clamped displacement and
      resets the velocity, so the frame after that leaves the player where it is. */
  lemma MoveOnce(e: Entity, d: Point, b: Bounds)
    requires e.kind == PlayerKind && |e.shape| > 0
    ensures NextFrame(Move(e, d), b).current == Clamp(b, e.shape, Add(e.current, d))
    ensures NextFrame(Move(e, d), b).velocity == Point(0, 0)
    ensures InRange(b, e.shape, NextFrame(Move(e, d), b).current) ==>
      NextFrame(NextFrame(Move(e, d), b), b).current == NextFrame(Move(e, d), b).current
  {
  }
}

=== FILE: points.dfy ===
/** Integer (row, column) coordinates and their translation (Display/Point.cs). */
module Points {

  /** A point; row 0 is the top row and column 0 the leftmost column. */
  datatype Point = Point(row: int, col: int)

  /** The displacement applied by both `Shift` overloads: component-wise addition. */
  function Add(p: Point, d: Point): Point
  {
    Point(p.row + d.row, p.col + d.col)
  }

  /** What a `Shift` call leaves behind. `receiver` is the point the call was made on, as it
      stands afterwards; `returned` is the point the call hands back; `aliased` records that
      the returned reference is the receiver object itself rather than a fresh one. */
  datatype Shifted = Shifted(receiver: Point, returned: Point, aliased: bool)

  /** The constructor stores the given coordinates unchanged. */
  function NewPoint(row: int, col: int): (p: Point)
    ensures p.row == row && p.col == col
  {
    Point(row, col)
  }

  /** `Shift(row, column, inPlace)`: a fresh translated point, or the receiver translated
      in place and returned. Either way the returned coordinates are the receiver's plus the
      displacement. */
  function Shift(p: Point, dRow: int, dCol: int, inPlace: bool): (r: Shifted)
    ensures r.returned.row == p.row + dRow && r.returned.col == p.col + dCol
    ensures r.aliased == inPlace
    ensures !inPlace ==> r.receiver == p
    ensures inPlace ==> r.receiver == r.returned
  {
    if !inPlace then Shifted(p, Add(p, Point(dRow, dCol)), false)
    else
      var moved := Add(p, Point(dRow, dCol));
      Shifted(moved, moved, true)
  }

  /** `Shift(displacement, inPlace)` delegates to the coordinate overload. */
  function ShiftBy(p: Point, d: Point, inPlace: bool): (r: Shifted)
    ensures r.returned == Add(p, d)
    ensures !inPlace ==> r.receiver == p
    ensures inPlace ==> r.receiver == r.returned && r.aliased
  {
    Shift(p, d.row, d.col, inPlace)
  }

  /** The vector overload and the coordinate overload agree on every input. */
  lemma ShiftByDelegates(p: Point, d: Point, inPlace: bool)
    ensures ShiftBy(p, d, inPlace) == Shift(p, d.row, d.col, inPlace)
  {
  }

  /** Fresh shifts compose additively: shifting by a and then by b lands where shifting once
      by a + b does, and the original point is untouched by both. */
  lemma ShiftComposes(p: Point, a: Point, b: Point)
    ensures ShiftBy(ShiftBy(p, a, false).returned, b, false).returned == ShiftBy(p, Add(a, b), false).returned
    ensures ShiftBy(p, a, false).receiver == p
  {
  }
}

=== FILE: projectile.dfy ===
/** Projectiles (Projectile.cs): one-character entities with no hit points that expire when
    flagged or about to leave the playfield. */
module Projectiles {
  import opened Points
  import opened Results
  import opened Entities
  import opened Creatures

  const ProjectileShape: seq<seq<char>> := [['|']]

  /** The constructor: the location goes through the clamping setter, the velocity is kept. */
  function NewProjectile(b: Bounds, location: Point, velocity: Point): (e: Entity)
    ensures Shaped(e) && e.kind == ProjectileKind && e.hitPoint.None? && e.shape == ProjectileShape
    ensures e.velocity == velocity && e.previous == Point(0, 0) && !e.flagged && e.colorMap.None?
    ensures e.current == Clamp(b, ProjectileShape, location)
  {
    SetLocation(Fresh(ProjectileKind, None, ProjectileShape, Point(0, 0)), b, location).(velocity := velocity)
  }

  /** For a projectile the edge formula of the collision test amounts to a box test whose
      box reaches one column left of and one row above the other entity's bounding box
      (the other entity having at least one non-empty row, as every shape of the game has). */
  lemma BulletCollision(e: Entity, other: Entity)
    requires e.shape == ProjectileShape && |other.shape| > 0 && Width(other.shape) > 0
    ensures IsColliding(e, other) <==>
      && other.current.row - 1 <= e.current.row < other.current.row + |other.shape|
      && other.current.col - 1 <= e.current.col < other.current.col + Width(other.shape)
  {
    assert Width(ProjectileShape) == 1 by {
      assert |ProjectileShape[0]| == 1;
    }
  }

  /** A projectile flying upwards climbs one row per frame and expires exactly when it is
      flagged or sits on the top row. */
  lemma RisingProjectile(e: Entity, b: Bounds)
    requires Placed(e, b) && e.kind == ProjectileKind && e.shape == ProjectileShape && e.velocity == Point(-1, 0)
    ensures IsExpiring(e, b) <==> e.flagged || e.current.row == 0
    ensures e.current.row > 0 ==> NextFrame(e, b).current == Point(e.current.row - 1, e.current.col)
  {
    assert Width(ProjectileShape) == 1 by {
      assert |ProjectileShape[0]| == 1;
    }
  }
}

=== FILE: results.dfy ===
/** Optional values and success-or-error outcomes, used where the game's code has a null
    reference or throws an exception to its caller. */
module Results {

  datatype Option<+T> = None | Some(value: T)

  datatype Result<+T, +E> = Success(value: T) | Failure(error: E)
}

=== FILE: roster.dfy ===
/** The passes `Game.Update` makes over its entity list (Game.cs): hit marking, removal of
    expiring entities, and the advance-and-draw pass. The list is a sequence of entity values;
    a pass returns the new list together with the grid it leaves behind. */
module Rosters {
  import opened Points
  import opened Results
  import opened Grids
  import opened Entities
  import opened Creatures

  /** The number of entities of kind k. */
  function Count(rs: seq<Entity>, k: Kind): (n: nat)
    ensures n <= |rs|
    ensures n > 0 <==> exists i :: 0 <= i < |rs| && rs[i].kind == k
  {
    if rs == [] then 0
    else
      var rest := Count(rs[1..], k);
      assert forall i :: 1 <= i < |rs| ==> rs[i] == rs[1..][i - 1];
      (if rs[0].kind == k then 1 else 0) + rest
  }

  lemma {:induction false} CountConcat(a: seq<Entity>, b: seq<Entity>, k: Kind)
    ensures Count(a + b, k) == Count(a, k) + Count(b, k)
  {
    if a == [] {
      assert a + b == b;
    } else {
      assert (a + b)[0] == a[0] && (a + b)[1..] == a[1..] + b;
      CountConcat(a[1..], b, k);
    }
  }

  /** Two lists with the same kind at every index. */
  ghost predicate SameKinds(a: seq<Entity>, b: seq<Entity>)
  {
    |a| == |b| && forall i :: 0 <= i < |a| ==> a[i].kind == b[i].kind
  }

  lemma {:induction false} CountSameKinds(a: seq<Entity>, b: seq<Entity>, k: Kind)
    requires SameKinds(a, b)
    ensures Count(a, k) == Count(b, k)
  {
    if a != [] {
      assert SameKinds(a[1..], b[1..]) by {
        forall i | 0 <= i < |a[1..]| ensures a[1..][i].kind == b[1..][i].kind {
          assert a[1..][i] == a[i + 1] && b[1..][i] == b[i + 1];
        }
      }
      CountSameKinds(a[1..], b[1..], k);
    }
  }

  /** The index of the first entity of kind k; when there is only one, it is the only index
      holding that kind. */
  function IndexOf(rs: seq<Entity>, k: Kind): (i: nat)
    requires Count(rs, k) > 0
    ensures i < |rs| && rs[i].kind == k
    ensures forall j :: 0 <= j < i ==> rs[j].kind != k
    ensures Count(rs, k) == 1 ==> forall j :: 0 <= j < |rs| && rs[j].kind == k ==> j == i
  {
    if rs[0].kind == k then
      assert forall j :: 1 <= j < |rs| ==> rs[j] == rs[1..][j - 1];
      0
    else
      var rest := IndexOf(rs[1..], k);
      assert forall j :: 1 <= j < |rs| ==> rs[j] == rs[1..][j - 1];
      1 + rest
  }

  /** The number of flagged entities of kind k. */
  function FlagCount(rs: seq<Entity>, k: Kind): (n: nat)
  {
    if rs == [] then 0
    else (if rs[0].kind == k && rs[0].flagged then 1 else 0) + FlagCount(rs[1..], k)
  }

  /** Only entities of kind k count, so there are at most as many flagged as there are in
      all; a list with nothing flagged counts none. */
  lemma {:induction false} FlagCountBound(rs: seq<Entity>, k: Kind)
    ensures FlagCount(rs, k) <= Count(rs, k)
    ensures (forall i :: 0 <= i < |rs| ==> !rs[i].flagged) ==> FlagCount(rs, k) == 0
  {
    if rs != [] {
      assert forall i :: 1 <= i < |rs| ==> rs[i] == rs[1..][i - 1];
      FlagCountBound(rs[1..], k);
    }
  }

  /** Flagging an unflagged entity raises the flagged count of its kind by one and leaves
      every other kind's count alone; flagging a flagged one changes nothing. */
  lemma {:induction false} FlagCountSet(rs: seq<Entity>, i: int, k: Kind)
    requires 0 <= i < |rs|
    ensures FlagCount(rs[i := rs[i].(flagged := true)], k) ==
      FlagCount(rs, k) + (if rs[i].kind == k && !rs[i].flagged then 1 else 0)
  {
    var t := rs[i := rs[i].(flagged := true)];
    if i == 0 {
      assert t[1..] == rs[1..];
    } else {
      assert t[1..] == rs[1..][i - 1 := rs[i].(flagged := true)];
      FlagCountSet(rs[1..], i - 1, k);
    }
  }

  /** Every entity is well-typed (a shape, and hit points exactly for creatures). */
  ghost predicate AllShaped(rs: seq<Entity>)
  {
    forall i :: 0 <= i < |rs| ==> Shaped(rs[i])
  }

  /** Projectile p takes out `target` now: it collides with it and is not yet expiring. */
  predicate Shoots(p: Entity, target: Entity, b: Bounds)
    requires Shaped(p) && |target.shape| > 0
  {
    p.kind == ProjectileKind && IsColliding(p, target) && !IsExpiring(p, b)
  }

  /** The first projectile, in list order from `from`, that takes out `target`; the marking
      pass stops at the first such projectile. */
  function FirstShooter(rs: seq<Entity>, b: Bounds, target: Entity, from: nat): (r: Option<nat>)
    requires AllShaped(rs) && |target.shape| > 0
    decreases |rs| - from
    ensures r.Some? ==> from <= r.value < |rs| && rs[r.value].kind == ProjectileKind && !rs[r.value].flagged
  {
    if from >= |rs| then None
    else if Shoots(rs[from], target, b) then Some(from)
    else FirstShooter(rs, b, target, from + 1)
  }

  /** The projectile found is the first one from `from` that takes `target` out, and none is
      found exactly when no projectile from `from` on takes it out. */
  lemma {:induction false} FirstShooterSpec(rs: seq<Entity>, b: Bounds, target: Entity, from: nat)
    requires AllShaped(rs) && |target.shape| > 0
    decreases |rs| - from
    ensures FirstShooter(rs, b, target, from).Some? ==>
      var s := FirstShooter(rs, b, target, from).value;
      Shoots(rs[s], target, b) && forall m :: from <= m < s ==> !Shoots(rs[m], target, b)
    ensures FirstShooter(rs, b, target, from).None? ==> forall m :: from <= m < |rs| ==> !Shoots(rs[m], target, b)
  {
    if from < |rs| && !Shoots(rs[from], target, b) {
      FirstShooterSpec(rs, b, target, from + 1);
    }
  }

  /** t evolved from s by setting expiry flags only: same length, entries equal up to the
      flag, and no flag cleared. */
  ghost predicate Grows(s: seq<Entity>, t: seq<Entity>)
  {
    && |s| == |t|
    && (forall i :: 0 <= i < |s| ==> t[i] == s[i].(flagged := t[i].flagged))
    && (forall i :: 0 <= i < |s| ==> s[i].flagged ==> t[i].flagged)
  }

  /** The turn of index `at` in the hit-marking pass: when it holds an enemy that some
      projectile takes out, the first such projectile in list order and the enemy are flagged
      and one kill is counted; otherwise nothing changes. */
  function Turn(rs: seq<Entity>, b: Bounds, at: nat): (r: (seq<Entity>, nat))
    requires AllShaped(rs) && at < |rs|
    ensures |r.0| == |rs| && AllShaped(r.0) && r.1 <= 1
  {
    if rs[at].kind != EnemyKind then (rs, 0)
    else
      match FirstShooter(rs, b, rs[at], 0)
      case None => (rs, 0)
      case Some(m) => (rs[m := rs[m].(flagged := true)][at := rs[at].(flagged := true)], 1)
  }

  /** The hit-marking pass from index `from` on: the turns of `from`, `from` + 1, ... in
      order, each seeing the flags the earlier ones set. Returns the list and the number of
      kills. */
  function Mark(rs: seq<Entity>, b: Bounds, from: nat): (r: (seq<Entity>, nat))
    requires AllShaped(rs)
    decreases |rs| - from
    ensures |r.0| == |rs| && AllShaped(r.0)
  {
    if from >= |rs| then (rs, 0)
    else
      var one := Turn(rs, b, from);
      var rest := Mark(one.0, b, from + 1);
      (rest.0, rest.1 + one.1)
  }

  /** Growing is transitive. */
  lemma GrowsTrans(s: seq<Entity>, t: seq<Entity>, u: seq<Entity>)
    requires Grows(s, t) && Grows(t, u)
    ensures Grows(s, u)
  {
    forall i | 0 <= i < |s| ensures u[i] == s[i].(flagged := u[i].flagged) {
      assert t[i] == s[i].(flagged := t[i].flagged);
    }
  }

  /** A turn that takes the enemy out found a projectile that takes it out and is the first
      to do so, and flagged that projectile and the enemy and nothing else; a turn without a
      kill changes nothing, and at an enemy it means no projectile takes that enemy out. */
  lemma TurnHit(rs: seq<Entity>, b: Bounds, at: nat) returns (m: nat)
    requires AllShaped(rs) && at < |rs|
    ensures Turn(rs, b, at).1 == 1 ==>
      && rs[at].kind == EnemyKind && m < |rs| && m != at
      && Shoots(rs[m], rs[at], b) && (forall k :: 0 <= k < m ==> !Shoots(rs[k], rs[at], b))
      && Turn(rs, b, at).0 == rs[m := rs[m].(flagged := true)][at := rs[at].(flagged := true)]
    ensures Turn(rs, b, at).1 == 0 ==> Turn(rs, b, at).0 == rs
    ensures Turn(rs, b, at).1 == 0 && rs[at].kind == EnemyKind ==>
      forall k :: 0 <= k < |rs| ==> !Shoots(rs[k], rs[at], b)
  {
    m := 0;
    if rs[at].kind == EnemyKind {
      FirstShooterSpec(rs, b, rs[at], 0);
      if FirstShooter(rs, b, rs[at], 0).Some? {
        m := FirstShooter(rs, b, rs[at], 0).value;
      }
    }
  }

  /** A turn only sets flags. */
  lemma TurnGrows(rs: seq<Entity>, b: Bounds, at: nat)
    requires AllShaped(rs) && at < |rs|
    ensures Grows(rs, Turn(rs, b, at).0)
  {
    var m := TurnHit(rs, b, at);
  }

  /** A turn touches only projectiles and the entry whose turn it is. */
  lemma TurnKeeps(rs: seq<Entity>, b: Bounds, at: nat)
    requires AllShaped(rs) && at < |rs|
    ensures forall i :: 0 <= i < |rs| && i != at && rs[i].kind != ProjectileKind ==> Turn(rs, b, at).0[i] == rs[i]
    ensures rs[at].kind != EnemyKind ==> Turn(rs, b, at).0 == rs
  {
    var m := TurnHit(rs, b, at);
  }

  /** A kill flags one projectile that was not yet flagged. */
  lemma TurnFlagsShooter(rs: seq<Entity>, b: Bounds, at: nat)
    requires AllShaped(rs) && at < |rs|
    ensures FlagCount(Turn(rs, b, at).0, ProjectileKind) == FlagCount(rs, ProjectileKind) + Turn(rs, b, at).1
  {
    var m := TurnHit(rs, b, at);
    if Turn(rs, b, at).1 == 1 {
      var shot := rs[m := rs[m].(flagged := true)];
      FlagCountSet(rs, m, ProjectileKind);
      FlagCountSet(shot, at, ProjectileKind);
    }
  }

  /** A kill at an unflagged enemy flags one more enemy, and the enemies after it stay
      unflagged. */
  lemma TurnFlagsEnemy(rs: seq<Entity>, b: Bounds, at: nat)
    requires AllShaped(rs) && at < |rs|
    requires forall i :: at <= i < |rs| && rs[i].kind == EnemyKind ==> !rs[i].flagged
    ensures FlagCount(Turn(rs, b, at).0, EnemyKind) == FlagCount(rs, EnemyKind) + Turn(rs, b, at).1
    ensures forall i :: at < i < |rs| && Turn(rs, b, at).0[i].kind == EnemyKind ==> !Turn(rs, b, at).0[i].flagged
  {
    var m := TurnHit(rs, b, at);
    if Turn(rs, b, at).1 == 1 {
      var shot := rs[m := rs[m].(flagged := true)];
      FlagCountSet(rs, m, EnemyKind);
      FlagCountSet(shot, at, EnemyKind);
      assert shot[at] == rs[at];
    }
  }

  /** The pass from `from` on is its first turn followed by the rest of the pass. */
  lemma MarkUnfold(rs: seq<Entity>, b: Bounds, from: nat)
    requires AllShaped(rs) && from < |rs|
    ensures Mark(rs, b, from).0 == Mark(Turn(rs, b, from).0, b, from + 1).0
    ensures Mark(rs, b, from).1 == Mark(Turn(rs, b, from).0, b, from + 1).1 + Turn(rs, b, from).1
  {
  }

  /** The marking pass only sets flags. */
  lemma {:induction false} MarkGrows(rs: seq<Entity>, b: Bounds, from: nat)
    requires AllShaped(rs)
    decreases |rs| - from
    ensures Grows(rs, Mark(rs, b, from).0)
  {
    if from < |rs| {
      var t := Turn(rs, b, from).0;
      MarkUnfold(rs, b, from);
      TurnGrows(rs, b, from);
      MarkGrows(t, b, from + 1);
      GrowsTrans(rs, t, Mark(t, b, from + 1).0);
    }
  }

  /** The marking pass touches projectiles and the enemies whose turn has come: players stay
      as they were, and so do the enemies before `from`. */
  lemma {:induction false} MarkKeeps(rs: seq<Entity>, b: Bounds, from: nat)
    requires AllShaped(rs)
    decreases |rs| - from
    ensures forall i :: 0 <= i < |rs| && rs[i].kind != EnemyKind && rs[i].kind != ProjectileKind ==> Mark(rs, b, from).0[i] == rs[i]
    ensures forall i :: 0 <= i < from && i < |rs| && rs[i].kind == EnemyKind ==> Mark(rs, b, from).0[i] == rs[i]
  {
    if from < |rs| {
      var t := Turn(rs, b, from).0;
      MarkUnfold(rs, b, from);
      TurnKeeps(rs, b, from);
      MarkKeeps(t, b, from + 1);
    }
  }

  /** Every kill flags one projectile that was not yet flagged. */
  lemma {:induction false} MarkFlagsShooters(rs: seq<Entity>, b: Bounds, from: nat)
    requires AllShaped(rs)
    decreases |rs| - from
    ensures FlagCount(Mark(rs, b, from).0, ProjectileKind) == FlagCount(rs, ProjectileKind) + Mark(rs, b, from).1
  {
    if from < |rs| {
      MarkUnfold(rs, b, from);
      TurnFlagsShooter(rs, b, from);
      MarkFlagsShooters(Turn(rs, b, from).0, b, from + 1);
    }
  }

  /** When the enemies still to be checked start unflagged, every kill flags one enemy. */
  lemma {:induction false} MarkFlagsEnemies(rs: seq<Entity>, b: Bounds, from: nat)
    requires AllShaped(rs)
    requires forall i :: from <= i < |rs| && rs[i].kind == EnemyKind ==> !rs[i].flagged
    decreases |rs| - from
    ensures FlagCount(Mark(rs, b, from).0, EnemyKind) == FlagCount(rs, EnemyKind) + Mark(rs, b, from).1
  {
    if from < |rs| {
      MarkUnfold(rs, b, from);
      TurnFlagsEnemy(rs, b, from);
      MarkFlagsEnemies(Turn(rs, b, from).0, b, from + 1);
    }
  }

  /** No hit is missed: an enemy the pass checked that is still unflagged afterwards is taken
      out by no projectile of the resulting list. */
  lemma {:induction false} MarkMissesNothing(rs: seq<Entity>, b: Bounds, from: nat, i: int)
    requires AllShaped(rs) && from <= i < |rs| && rs[i].kind == EnemyKind
    requires !Mark(rs, b, from).0[i].flagged
    decreases |rs| - from
    ensures forall m :: 0 <= m < |rs| ==> !Shoots(Mark(rs, b, from).0[m], Mark(rs, b, from).0[i], b)
  {
    var one := Turn(rs, b, from);
    MarkUnfold(rs, b, from);
    if from < i {
      TurnGrows(rs, b, from);
      MarkMissesNothing(one.0, b, from + 1, i);
    } else {
      var t := Mark(one.0, b, from + 1).0;
      var s := TurnHit(rs, b, from);
      MarkGrows(one.0, b, from + 1);
      assert !one.0[i].flagged;
      assert one.1 == 0;
      assert t[i] == rs[i];
      forall m | 0 <= m < |rs| ensures !Shoots(t[m], t[i], b) {
        if !t[m].flagged {
          assert t[m] == rs[m];
        }
      }
    }
  }

  /** The pass leaves an entry's flag as its own turn set it: later turns touch only
      projectiles and later enemies. */
  lemma TurnDecides(rs: seq<Entity>, b: Bounds, i: nat)
    requires AllShaped(rs) && i < |rs| && rs[i].kind == EnemyKind
    ensures Mark(rs, b, i).0[i] == Turn(rs, b, i).0[i]
  {
    MarkUnfold(rs, b, i);
    MarkKeeps(Turn(rs, b, i).0, b, i + 1);
  }

  /** At its own turn, an unflagged enemy that the pass flags was taken out by a projectile,
      m, that the pass leaves flagged. */
  lemma HitAtTurn(rs: seq<Entity>, b: Bounds, i: nat) returns (m: nat)
    requires AllShaped(rs) && i < |rs| && rs[i].kind == EnemyKind && !rs[i].flagged
    requires Mark(rs, b, i).0[i].flagged
    ensures m < |rs| && Mark(rs, b, i).0[m].kind == ProjectileKind && Mark(rs, b, i).0[m].flagged
    ensures IsColliding(Mark(rs, b, i).0[m], rs[i])
  {
    var one := Turn(rs, b, i);
    TurnDecides(rs, b, i);
    m := TurnHit(rs, b, i);
    assert one.1 == 1;
    MarkUnfold(rs, b, i);
    MarkGrows(one.0, b, i + 1);
    var t := Mark(rs, b, i).0;
    assert t[m] == rs[m].(flagged := t[m].flagged);
    CollidingIgnoresFlag(rs[m], rs[i], t[m].flagged);
  }

  /** No hit is invented: an unflagged enemy the pass flags collides with a projectile, m,
      that the pass leaves flagged. */
  lemma {:induction false} MarkHitsAreReal(rs: seq<Entity>, b: Bounds, from: nat, i: int) returns (m: nat)
    requires AllShaped(rs) && from <= i < |rs| && rs[i].kind == EnemyKind && !rs[i].flagged
    requires Mark(rs, b, from).0[i].flagged
    decreases |rs| - from
    ensures m < |rs| && Mark(rs, b, from).0[m].kind == ProjectileKind && Mark(rs, b, from).0[m].flagged
    ensures IsColliding(Mark(rs, b, from).0[m], rs[i])
  {
    if from == i {
      m := HitAtTurn(rs, b, i);
    } else {
      var one := Turn(rs, b, from);
      MarkUnfold(rs, b, from);
      TurnKeeps(rs, b, from);
      m := MarkHitsAreReal(one.0, b, from + 1, i);
    }
  }

  /** Every entity is placed on the playfield of bounds b. */
  ghost predicate AllPlaced(rs: seq<Entity>, b: Bounds)
  {
    forall i :: 0 <= i < |rs| ==> Placed(rs[i], b)
  }

  /** The entities that are not expiring, in their original order. */
  function Survivors(rs: seq<Entity>, b: Bounds): (r: seq<Entity>)
    requires AllShaped(rs)
    ensures |r| <= |rs|
  {
    if rs == [] then []
    else
      assert forall i :: 1 <= i < |rs| ==> rs[i] == rs[1..][i - 1];
      (if IsExpiring(rs[0], b) then [] else [rs[0]]) + Survivors(rs[1..], b)
  }

  /** An entity survives exactly when it is on the list and not expiring. */
  lemma {:induction false} SurvivorsMembers(rs: seq<Entity>, b: Bounds)
    requires AllShaped(rs)
    ensures forall x :: x in Survivors(rs, b) <==> x in rs && !IsExpiring(x, b)
  {
    if rs != [] {
      assert forall i :: 1 <= i < |rs| ==> rs[i] == rs[1..][i - 1];
      assert forall x :: x in rs <==> x == rs[0] || x in rs[1..];
      SurvivorsMembers(rs[1..], b);
    }
  }

  /** Removal and concatenation commute. */
  lemma {:induction false} SurvivorsConcat(a: seq<Entity>, c: seq<Entity>, b: Bounds)
    requires AllShaped(a) && AllShaped(c)
    ensures AllShaped(a + c)
    ensures Survivors(a + c, b) == Survivors(a, b) + Survivors(c, b)
  {
    if a == [] {
      assert a + c == c;
    } else {
      assert forall i :: 1 <= i < |a| ==> a[i] == a[1..][i - 1];
      assert (a + c)[0] == a[0] && (a + c)[1..] == a[1..] + c;
      SurvivorsConcat(a[1..], c, b);
    }
  }

  /** A list in which nothing is expiring survives whole. */
  lemma {:induction false} SurvivorsAll(rs: seq<Entity>, b: Bounds)
    requires AllShaped(rs) && forall i :: 0 <= i < |rs| ==> !IsExpiring(rs[i], b)
    ensures Survivors(rs, b) == rs
  {
    if rs != [] {
      assert forall i :: 1 <= i < |rs| ==> rs[i] == rs[1..][i - 1];
      SurvivorsAll(rs[1..], b);
      assert [rs[0]] + rs[1..] == rs;
    }
  }

  /** When no entity of kind k is expiring, removal keeps all of them. */
  lemma {:induction false} SurvivorsCount(rs: seq<Entity>, b: Bounds, k: Kind)
    requires AllShaped(rs) && forall i :: 0 <= i < |rs| && rs[i].kind == k ==> !IsExpiring(rs[i], b)
    ensures Count(Survivors(rs, b), k) == Count(rs, k)
  {
    if rs != [] {
      assert forall i :: 1 <= i < |rs| ==> rs[i] == rs[1..][i - 1];
      SurvivorsCount(rs[1..], b, k);
      var head := if IsExpiring(rs[0], b) then [] else [rs[0]];
      CountConcat(head, Survivors(rs[1..], b), k);
      assert Count(head, k) == (if rs[0].kind == k then 1 else 0) by {
        if head != [] { assert head[1..] == []; }
      }
    }
  }

  /** The removal pass's work on one expiring entity: one more frame, then its previous
      image erased; it is kept only if it is no longer expiring. */
  function Retire(e: Entity, g: Grid, b: Bounds): (r: (seq<Entity>, Grid))
    requires Valid(g) && Covers(g, b) && Placed(e, b) && IsExpiring(e, b)
    ensures Valid(r.1) && SameShape(g, r.1)
  {
    NextFramePlaced(e, b);
    var moved := NextFrame(e, b);
    var erased := ErasePreviousImage(moved, g, b);
    if IsExpiring(moved, b) then ([], erased) else ([moved], erased)
  }

  /** An expiring entity stays expiring one frame on, so it is always dropped; what is
      erased is its image where it stood before the move, and those writes stay on the
      playfield. */
  lemma RetireDrops(e: Entity, g: Grid, b: Bounds)
    requires Valid(g) && Covers(g, b) && Placed(e, b) && IsExpiring(e, b)
    ensures Retire(e, g, b).0 == [] && Confined(g, Retire(e, g, b).1, b)
    ensures AllInBuffer(g, BlankPixels(e.shape, e.current))
    ensures Retire(e, g, b).1 == Paint(g, BlankPixels(e.shape, e.current))
  {
    NextFramePlaced(e, b);
    ExpiryPersists(e, b);
    EraseConfined(NextFrame(e, b), g, b);
    EraseIsPaint(NextFrame(e, b), g, b);
  }

  /** A list whose entries are all placed has placed entries after its head. */
  lemma PlacedTail(rs: seq<Entity>, b: Bounds)
    requires AllPlaced(rs, b) && rs != []
    ensures Placed(rs[0], b) && AllPlaced(rs[1..], b)
  {
    forall j | 0 <= j < |rs[1..]| ensures Placed(rs[1..][j], b) {
      assert rs[1..][j] == rs[j + 1];
    }
  }

  /** The removal pass (`RemoveAll`), front to back: an expiring entity goes through
      `Retire`; the rest stay untouched. */
  function Sweep(rs: seq<Entity>, g: Grid, b: Bounds): (r: (seq<Entity>, Grid))
    requires Valid(g) && Covers(g, b) && AllPlaced(rs, b)
    decreases |rs|
    ensures Valid(r.1) && SameShape(g, r.1)
  {
    if rs == [] then ([], g)
    else
      PlacedTail(rs, b);
      var head := if IsExpiring(rs[0], b) then Retire(rs[0], g, b) else ([rs[0]], g);
      var rest := Sweep(rs[1..], head.1, b);
      (head.0 + rest.0, rest.1)
  }

  /** The removal pass keeps exactly the entities that are not expiring, in order, and
      writes only playfield cells. */
  lemma {:induction false} SweepSurvivors(rs: seq<Entity>, g: Grid, b: Bounds)
    requires Valid(g) && Covers(g, b) && AllPlaced(rs, b)
    decreases |rs|
    ensures AllShaped(rs) && Sweep(rs, g, b).0 == Survivors(rs, b)
    ensures Confined(g, Sweep(rs, g, b).1, b)
  {
    if rs == [] {
      assert g.queue[..|g.queue|] == g.queue;
    } else {
      PlacedTail(rs, b);
      var head := if IsExpiring(rs[0], b) then Retire(rs[0], g, b) else ([rs[0]], g);
      if IsExpiring(rs[0], b) {
        RetireDrops(rs[0], g, b);
      } else {
        assert g.queue[..|g.queue|] == g.queue;
      }
      SweepSurvivors(rs[1..], head.1, b);
      ConfinedTrans(g, head.1, Sweep(rs[1..], head.1, b).1, b);
      assert AllShaped(rs) by {
        forall i | 0 <= i < |rs| ensures Shaped(rs[i]) {
          assert Placed(rs[i], b);
        }
      }
    }
  }

  /** The blanks the removal pass paints, in list order: for each expiring entity, its
      shape at the location it was last drawn at. */
  ghost function ErasedPixels(rs: seq<Entity>, b: Bounds): seq<Pixel>
    requires AllShaped(rs)
    decreases |rs|
  {
    if rs == [] then []
    else
      assert AllShaped(rs[1..]) by {
        forall j | 0 <= j < |rs[1..]| ensures Shaped(rs[1..][j]) {
          assert rs[1..][j] == rs[j + 1];
        }
      }
      (if IsExpiring(rs[0], b) then BlankPixels(rs[0].shape, rs[0].current) else [])
      + ErasedPixels(rs[1..], b)
  }

  /** The removal pass leaves the grid exactly as painting `ErasedPixels` over it would. */
  lemma {:induction false} SweepErases(rs: seq<Entity>, g: Grid, b: Bounds)
    requires Valid(g) && Covers(g, b) && AllPlaced(rs, b)
    decreases |rs|
    ensures AllShaped(rs) && AllInBuffer(g, ErasedPixels(rs, b))
    ensures Sweep(rs, g, b).1 == Paint(g, ErasedPixels(rs, b))
  {
    assert AllShaped(rs) by {
      forall i | 0 <= i < |rs| ensures Shaped(rs[i]) {
        assert Placed(rs[i], b);
      }
    }
    if rs != [] {
      PlacedTail(rs, b);
      var head := if IsExpiring(rs[0], b) then Retire(rs[0], g, b) else ([rs[0]], g);
      var blanks := if IsExpiring(rs[0], b) then BlankPixels(rs[0].shape, rs[0].current) else [];
      if IsExpiring(rs[0], b) {
        RetireDrops(rs[0], g, b);
      }
      assert head.1 == Paint(g, blanks);
      SweepErases(rs[1..], head.1, b);
      SameShapeInBuffer(g, head.1, ErasedPixels(rs[1..], b));
      PaintConcat(g, blanks, ErasedPixels(rs[1..], b));
    }
  }

  /** Every entity's colour map can be read without faulting. */
  ghost predicate AllMapsOk(rs: seq<Entity>)
  {
    forall i :: 0 <= i < |rs| ==> ColorMapOk(rs[i])
  }

  /** The map the colour map getter yields for an entity whose map is absent or matching:
      the stored one, or White everywhere. */
  function MapOrWhite(e: Entity): seq<seq<Color>>
  {
    if e.colorMap.Some? then e.colorMap.value else Uniform(e.shape, White)
  }

  /** An entity one frame on, holding the colour map it is drawn with. */
  function Stepped(e: Entity, b: Bounds): Entity
    requires |e.shape| > 0
  {
    NextFrame(e, b).(colorMap := Some(MapOrWhite(e)))
  }

  /** One entity's turn in the advance-and-draw pass: one frame on, then drawn. */
  function Step(e: Entity, g: Grid, b: Bounds): (r: (Entity, Grid))
    requires Valid(g) && Covers(g, b) && Placed(e, b) && ColorMapOk(e)
    ensures Valid(r.1) && SameShape(g, r.1)
    ensures r.0 == Stepped(e, b)
    ensures Placed(r.0, b) && ColorMapOk(r.0)
  {
    NextFramePlaced(e, b);
    Draw(NextFrame(e, b), g, b)
  }

  /** The pixels one step paints: blanks over the shape where the entity stood, then its
      image, in the map the getter yields, where it stands one frame on. */
  ghost function StepPixels(e: Entity, b: Bounds): seq<Pixel>
    requires |e.shape| > 0 && ColorMapOk(e)
  {
    BlankPixels(e.shape, Stepped(e, b).previous) + ImagePixels(e.shape, MapOrWhite(e), Stepped(e, b).current)
  }

  /** A step erases the entity's old image and draws its new one: the grid ends up as
      painting `StepPixels` over it would leave it. */
  lemma StepPaints(e: Entity, g: Grid, b: Bounds)
    requires Valid(g) && Covers(g, b) && Placed(e, b) && ColorMapOk(e)
    ensures AllInBuffer(g, StepPixels(e, b))
    ensures Step(e, g, b).1 == Paint(g, StepPixels(e, b))
  {
    NextFramePlaced(e, b);
    var m := NextFrame(e, b);
    EraseIsPaint(m, g, b);
    DrawIsPaint(m, g, b);
    var blanks := BlankPixels(e.shape, m.previous);
    var image := ImagePixels(e.shape, MapOrWhite(e), m.current);
    assert ReadColorMap(m).1 == MapOrWhite(e);
    PaintConcat(g, blanks, image);
  }

  /** A step writes only playfield cells. */
  lemma StepConfined(e: Entity, g: Grid, b: Bounds)
    requires Valid(g) && Covers(g, b) && Placed(e, b) && ColorMapOk(e)
    ensures Confined(g, Step(e, g, b).1, b)
  {
    NextFramePlaced(e, b);
    DrawConfined(NextFrame(e, b), g, b);
  }

  /** A list ready for the advance pass starts with a ready entity and has a ready tail. */
  lemma ReadyTail(rs: seq<Entity>, b: Bounds)
    requires AllPlaced(rs, b) && AllMapsOk(rs) && rs != []
    ensures Placed(rs[0], b) && ColorMapOk(rs[0])
    ensures AllPlaced(rs[1..], b) && AllMapsOk(rs[1..])
  {
    forall j | 0 <= j < |rs[1..]| ensures Placed(rs[1..][j], b) && ColorMapOk(rs[1..][j]) {
      assert rs[1..][j] == rs[j + 1];
    }
  }

  /** The advance-and-draw pass: in list order, every entity takes one frame and is then
      drawn at its new location. */
  function Advance(rs: seq<Entity>, g: Grid, b: Bounds): (r: (seq<Entity>, Grid))
    requires Valid(g) && Covers(g, b) && AllPlaced(rs, b) && AllMapsOk(rs)
    decreases |rs|
    ensures Valid(r.1) && SameShape(g, r.1) && r.0 == Steps(rs, b)
  {
    if rs == [] then ([], g)
    else
      ReadyTail(rs, b);
      var first := Step(rs[0], g, b);
      var rest := Advance(rs[1..], first.1, b);
      ([first.0] + rest.0, rest.1)
  }

  /** Every entity of a list one frame on. */
  function Steps(rs: seq<Entity>, b: Bounds): (r: seq<Entity>)
    requires AllPlaced(rs, b)
    ensures |r| == |rs|
  {
    if rs == [] then []
    else
      PlacedTail(rs, b);
      [Stepped(rs[0], b)] + Steps(rs[1..], b)
  }

  /** Entry i of the stepped list is entry i one frame on. */
  lemma {:induction false} StepsAt(rs: seq<Entity>, b: Bounds)
    requires AllPlaced(rs, b)
    ensures forall i :: 0 <= i < |rs| ==> Placed(rs[i], b) && Steps(rs, b)[i] == Stepped(rs[i], b)
  {
    if rs != [] {
      PlacedTail(rs, b);
      StepsAt(rs[1..], b);
      forall i | 1 <= i < |rs| ensures Steps(rs, b)[i] == Stepped(rs[i], b) {
        assert rs[i] == rs[1..][i - 1];
      }
    }
  }

  /** The pixels the advance pass paints: each entity's `StepPixels`, in list order. */
  ghost function FramePixels(rs: seq<Entity>, b: Bounds): seq<Pixel>
    requires AllPlaced(rs, b) && AllMapsOk(rs)
    decreases |rs|
  {
    if rs == [] then []
    else
      ReadyTail(rs, b);
      StepPixels(rs[0], b) + FramePixels(rs[1..], b)
  }

  /** The advance pass erases and redraws every entity in list order: the grid ends up as
      painting `FramePixels` over it would leave it. */
  lemma {:induction false} AdvancePaints(rs: seq<Entity>, g: Grid, b: Bounds)
    requires Valid(g) && Covers(g, b) && AllPlaced(rs, b) && AllMapsOk(rs)
    decreases |rs|
    ensures AllInBuffer(g, FramePixels(rs, b))
    ensures Advance(rs, g, b).1 == Paint(g, FramePixels(rs, b))
  {
    if rs != [] {
      ReadyTail(rs, b);
      var first := Step(rs[0], g, b);
      StepPaints(rs[0], g, b);
      AdvancePaints(rs[1..], first.1, b);
      SameShapeInBuffer(g, first.1, FramePixels(rs[1..], b));
      PaintConcat(g, StepPixels(rs[0], b), FramePixels(rs[1..], b));
    }
  }

  /** The advance pass writes only playfield cells. */
  lemma {:induction false} AdvanceConfined(rs: seq<Entity>, g: Grid, b: Bounds)
    requires Valid(g) && Covers(g, b) && AllPlaced(rs, b) && AllMapsOk(rs)
    decreases |rs|
    ensures Confined(g, Advance(rs, g, b).1, b)
  {
    if rs == [] {
      assert g.queue[..|g.queue|] == g.queue;
    } else {
      ReadyTail(rs, b);
      var first := Step(rs[0], g, b);
      StepConfined(rs[0], g, b);
      AdvanceConfined(rs[1..], first.1, b);
      ConfinedTrans(g, first.1, Advance(rs[1..], first.1, b).1, b);
    }
  }

  /** The advanced entities are still placed, readable and of the same kinds. */
  lemma AdvanceKeeps(rs: seq<Entity>, g: Grid, b: Bounds)
    requires Valid(g) && Covers(g, b) && AllPlaced(rs, b) && AllMapsOk(rs)
    ensures AllPlaced(Advance(rs, g, b).0, b) && AllMapsOk(Advance(rs, g, b).0)
    ensures SameKinds(rs, Advance(rs, g, b).0)
  {
    var t := Advance(rs, g, b).0;
    StepsAt(rs, b);
    forall i | 0 <= i < |rs| ensures Placed(t[i], b) && ColorMapOk(t[i]) && t[i].kind == rs[i].kind {
      NextFramePlaced(rs[i], b);
    }
  }

  /** Without projectiles the marking pass changes nothing and counts no kill. */
  lemma {:induction false} MarkQuiet(rs: seq<Entity>, b: Bounds, from: nat)
    requires AllShaped(rs) && Count(rs, ProjectileKind) == 0
    decreases |rs| - from
    ensures Mark(rs, b, from) == (rs, 0)
  {
    if from < |rs| {
      var m := TurnHit(rs, b, from);
      MarkUnfold(rs, b, from);
      MarkQuiet(rs, b, from + 1);
    }
  }
}
